=== FILE: README.md ===
# GMRS route core in Dafny

A model of the request-handling core of GMRS, a Flask application that tracks
incident reports, guidance requests and counselling cases for a school, with
Supabase as its data store and authentication service. The model covers:

- the access guard every protected route sits behind (`require_auth`,
  `get_current_user`);
- login, registration and logout as transitions of the session and the users
  table;
- the guest profile update, including Python's `str.strip()` and
  `str.split(maxsplit=1)` on the full name;
- the records each submit endpoint builds (student report, teacher incident,
  anonymous report, guidance request, counselling request, case note) and
  what the tables hold afterwards;
- the per-user dashboard lists, the status counts of the analytics pages,
  the admin user edit, soft delete and system settings.

Payloads and table rows are JSON objects (`JsonValue.Object`). A missing key
reads as null (`Get`), and `dict.get(k, d)` falls back to its default only
when the key is absent (`GetOr`). Every call into the store or the
authentication service is a parameter holding its outcome: the data returned,
or the exception raised (`Store.Fetch`, `Store.Lookup`, `Store.InsertOutcome`,
`Store.WriteOutcome`, `AuthRoutes.AuthReply`). A table is a sequence in
insertion order, so `.order('created_at', desc=True)` is its reverse
(`Query.NewestFirst`). The users table is a map from id to row: registration
inserts the row of a new id, and every other write updates columns of the
row with a given id. The session is three optional keys
(`Access.Session`). The guard tests whether the `user_id` key is *present*,
while `get_current_user` tests whether its value is *truthy*, and the model
keeps the two apart.

## Model

| member | source | states |
|---|---|---|
| Access.CurrentUser | app/utils/auth.py:5-16 | No user when the session has no `user_id` or an empty one, or when the lookup raises or finds no row; otherwise the row found |
| Access.RequireAuth | app/utils/auth.py:18-37 | The handler runs iff the session has a `user_id` key and either no roles are required or the stored role is one of them; without the key the answer is 401 "Authentication required" (JSON) or a redirect to login; otherwise it is 403 "Insufficient permissions" or a redirect home |
| Access.SingleRoleGuard | app/utils/auth.py:28-33 | A one-role guard admits exactly the callers whose users-table row carries that role |
| Access.GuardIgnoresSessionRole | app/utils/auth.py:29-30 | Changing the role cached in the session never changes the guard's decision |
| Access.UnrestrictedNeedsOnlySession | app/utils/auth.py:23-35 | With no roles or an empty list, only the `user_id` key matters and the users table is never consulted |
| Access.WiderRolesAdmitMore | app/utils/auth.py:28-35 | Whoever a role list admits, any list containing those roles admits too |
| Access.EmptyUserIdIsNoUser | app/utils/auth.py:7-30 | An empty `user_id` passes the key check but yields no user, so every role check refuses it |
| AuthRoutes.LandingFor | app/routes/auth.py:35-47 | Each of the five role names lands on its own dashboard, any other string or hashable role lands on '/', and a list or object role raises a `TypeError` |
| AuthRoutes.LoginRole | app/routes/auth.py:31 | With no row data from the lookup the session role is 'student'; with a row it is the row's `role`, or null when the row has no `role` column |
| AuthRoutes.Login | app/routes/auth.py:6-51 | Missing credentials give 400 and leave the session alone; an auth exception, no user or a failed users lookup give 401 and leave it alone; success happens iff user, session and lookup data are present and the landing is hashable, and then the session names the user, the stored role (or 'student') and the token; a 401 after the lookup succeeded leaves the session naming the user and that role, and when it is the missing session object the text is the `NoneType` attribute error and the previous access token stays |
| AuthRoutes.LoginAtomic | app/routes/auth.py:30-47 | Corrected login: a failed login leaves the session unchanged; a successful one sets all three keys |
| AuthRoutes.LoginAtomicAgrees | app/routes/auth.py:30-49 | The corrected login gives the same response as the written one, and the same session whenever it succeeds |
| AuthRoutes.Logout | app/routes/auth.py:90-93 | The session ends up with no keys and the caller is sent home |
| AuthRoutes.RegisteredRow | app/routes/auth.py:77-82 | The inserted row has exactly the columns id, email, full name and role; the role is the payload's when the key is present, even if null, and 'student' otherwise |
| AuthRoutes.Register | app/routes/auth.py:53-88 | Missing email, password or full name gives 400; success happens iff sign-up returns a user and the insert succeeds, and then exactly that user's row is added under a new id with the caller's role or 'student'; every failure is a 400 that changes nothing. A store that refuses duplicate ids is assumed: it never reports an insert of an id already present as written |
| AuthRoutes.ValidationPrecedesSignIn | app/routes/auth.py:15-16 | With missing credentials, the answers of the auth service and the users table cannot change the outcome |
| AuthRoutes.LandingPathsDistinct | app/routes/auth.py:36-47 | The five roles land on five different paths, none of them '/', and every other role string lands on '/' |
| AuthRoutes.LoginThenGuard | app/routes/auth.py:28-32 | After a successful login, a one-role guard admits the new session iff the stored row carries that role |
| AuthRoutes.FallbackStudentIsTurnedAway | app/routes/auth.py:31 | When the users lookup answers with no data instead of raising, the user is logged in as 'student' and sent to the student dashboard, yet the student guard refuses that session |
| AuthRoutes.LogoutSignsOut | app/routes/auth.py:92 | After logout every guarded route answers as if the caller never signed in |
| AuthRoutes.SelfRegisteredAdmin | app/routes/auth.py:62 | A caller who registers with role 'admin' passes the admin guard |
| AuthRoutes.RegisterDefaultsToStudent | app/routes/auth.py:62 | Registration without a role key stores 'student' |
| AuthRoutes.LoginFailureLeavesSessionSignedIn | app/routes/auth.py:30-32 | For every prior session and user, every payload with an email and a password, and every users lookup that answers without raising: when sign-in returns a user but no session object, the reply is 401 and the session names that user and the role read from the lookup, yet still holds the previous session's access token |
| AuthRoutes.UnhashableRoleLeavesSessionSignedIn | app/routes/auth.py:30-47 | When the users row holds a list or object as its role, the reply is 401 and the session holds the user, that role and the token |
| Names.Strip | app/routes/guest.py:102 | The stripped name has no whitespace at either end, and is empty iff the name is all whitespace |
| Names.StripBetween | app/routes/guest.py:102 | Whenever a name is leading whitespace, then a middle that starts and ends with a non-space, then trailing whitespace, stripping it gives exactly that middle; so the stripped name is pinned down |
| Names.SplitOnce | app/routes/guest.py:103 | At most two parts; none iff the string is all whitespace; the first part is a non-empty word; a second part starts with a non-space |
| Names.SplitFullName | app/routes/guest.py:102-105 | The first name is one word, empty iff the full name is all whitespace; an empty first name comes with an empty last name; a last name starts with a non-space |
| Names.SplitOnceOfTrimmed | app/routes/guest.py:102-103 | For a stripped name: one part is the whole name; with two parts, the first is its prefix, the second is its suffix, and only whitespace lies between |
| Names.SplitFullNameShape | app/routes/guest.py:101-105 | The first name is one word and is empty iff the full name is all whitespace, in which case the last name is empty too; the last name is trimmed |
| Names.SplitFullNameParts | app/routes/guest.py:101-105 | With no last name, the first name is the whole stripped name; otherwise first name, a whitespace run and the last name make up the stripped name |
| Names.JoinThenSplit | app/routes/guest.py:102-105 | Splitting `first + " " + last` gives back `(first, last)` when first is one word and last is trimmed |
| Names.BlankName | app/routes/guest.py:104-105 | An empty or all-whitespace full name gives two empty names |
| Names.SingleWordName | app/routes/guest.py:104-105 | A single word gives that word and an empty last name |
| Guest.ProfileChanges | app/routes/guest.py:97-114 | The update crashes iff `full_name` is present but not a string; a name column is written iff its own key or `full_name` is present; explicit names win over the split; contact and address are copied iff present |
| Guest.Columns | app/routes/guest.py:98-114 | Each of the four columns is in the update iff it was set, and no other column is |
| Guest.Profile | app/routes/guest.py:97-120 | A crash in building the update is a server error; otherwise the reply is success when the update is written and 400 with the exception text when it raises, which writes nothing; success writes those columns to the caller's row only, and no row appears or disappears |
| Guest.ProfileKeepsRoles | app/routes/guest.py:117 | No row's role changes through a guest profile update |
| Guest.FullNameThenOverride | app/routes/guest.py:101-110 | A lone `full_name` sets both names from its split and nothing else; an explicit `first_name` replaces only the first half |
| Guest.EmptyPayloadWritesNothing | app/routes/guest.py:98-114 | An empty payload produces an empty update |
| Guest.NewRequest | app/routes/guest.py:49-54 | A new guidance request belongs to the caller, is pending, and copies the payload's request type and description (null when absent) |
| Guest.SubmitRequest | app/routes/guest.py:47-58 | Success iff the insert returns; then the request is appended; otherwise 400 with the exception text and no change; a returned insert is answered with success echoing its first returned row, or null when it returned none, under `'request'` and nothing else |
| Guest.SubmitRequestRoute | app/routes/guest.py:38-58 | The table changes only for a caller whose stored role is 'guest'; any other caller gets the guard's answer and no change; a 'guest' caller gets exactly the outcome of storing the request as that user |
| Student.NewReport | app/routes/student.py:49-56 | A student report belongs to the caller, is pending, is marked reported by 'student', and copies title, description and category |
| Student.SubmitReport | app/routes/student.py:47-60 | Success iff the insert returns; then the report is appended; otherwise 400 with the exception text and no change; a returned insert is answered with success echoing its first returned row, or null when it returned none, under `'report'` and nothing else |
| Student.SubmitReportRoute | app/routes/student.py:38-60 | Only a caller whose stored role is 'student' can add a report, and such a caller gets exactly the outcome of storing the report as that user |
| Student.NewCounselingRequest | app/routes/student.py:85-91 | The request is the caller's and pending, copies the payload's reason and preferred date (null when absent), and its urgency is 'normal' only when the key is absent |
| Student.RequestCounseling | app/routes/student.py:83-95 | The request is stored whenever the insert succeeds: no report or case is consulted; when the insert raises, nothing is stored and the reply is 400 with the exception text; a returned insert is answered with success echoing its first returned row, or null when it returned none, under `'request'` and nothing else |
| Student.DashboardView | app/routes/student.py:6-36 | Every listed report, request and notification is the caller's; every report and every request of the caller is listed, newest first, the i-th being the i-th newest; the notifications are the caller's newest, min(10, their number) of them, newest first; each failed query lists nothing |
| Student.SubmitThenDashboard | app/routes/student.py:14-56 | After a successful submission the new report heads its author's dashboard, one longer than before |
| Student.RequestThenDashboard | app/routes/student.py:21-91 | After a successful request it heads its author's counselling list, one longer than before |
| Student.ProfileColumns | app/routes/student.py:147-152 | Exactly the four columns are written, each from the payload or null |
| Student.Profile | app/routes/student.py:146-154 | Only the caller's row changes; the four columns take the payload values; every other column, the role included, keeps its value |
| Teacher.NewIncident | app/routes/teacher.py:37-45 | An incident belongs to the teacher, names the payload's student, is pending, is marked reported by 'teacher', and copies title, description and category |
| Teacher.SubmitIncident | app/routes/teacher.py:35-49 | Success iff the insert returns; then the incident is appended; otherwise 400 with the exception text and no change; a returned insert is answered with success echoing its first returned row, or null when it returned none, under `'report'` and nothing else |
| Teacher.SubmitIncidentRoute | app/routes/teacher.py:26-49 | Only a caller whose stored role is 'teacher' can add an incident, and such a caller gets exactly the outcome of storing the incident as that user |
| Teacher.DashboardAsWritten | app/routes/teacher.py:6-17 | The dashboard as written always crashes |
| Teacher.DashboardIntended | app/routes/teacher.py:12-13 | The corrected dashboard renders the 20 newest reports (fewer if the table is smaller), newest first, and the caller's newest notifications, min(10, their number) of them, newest first |
| Teacher.IncidentHeadsDashboard | app/routes/teacher.py:12-45 | A stored incident heads the corrected dashboard's report list |
| Anonymous.NewReport | app/routes/anonymous.py:14-21 | An anonymous report has no author and no student, is pending, is marked 'anonymous' and flagged anonymous |
| Anonymous.SubmitReply | app/routes/anonymous.py:23-25 | `report_id` is the echoed row's id, or null when nothing is echoed; an echoed row without an id gives 400 `'id'`; a raised insert gives 400 with its text |
| Anonymous.Submit | app/routes/anonymous.py:5-25 | A returned insert appends the report; a raised insert answers 400 and changes nothing; on a returned insert the reply's `report_id` is the first returned row's `id`, or null when no row came back, and a first row without an `id` gives 400 `'id'` although the report is stored |
| Anonymous.AnonymousReportIsNobodys | app/routes/anonymous.py:14-21 | An anonymous report never appears among any user's own reports |
| Anonymous.Track | app/routes/anonymous.py:27-34 | The error "Report not found" appears iff the lookup raised, and then the report is empty; otherwise the report is the row found, or empty |
| Anonymous.SingleById | app/routes/anonymous.py:31 | The lookup by id returns a row iff exactly one stored row has that id, and then returns that row; otherwise it raises |
| Anonymous.TrackById | app/routes/anonymous.py:27-34 | Tracking an id shows "Report not found" iff no row or several rows have it, and otherwise the stored row with that id |
| Anonymous.StoredReportIsTrackable | app/routes/anonymous.py:14-34 | A row appended to the reports table, as the store holds it with its id, whose id no earlier row has is tracked by that id with no error, showing exactly that row |
| Counselor.DashboardView | app/routes/counselor.py:6-26 | Exactly the caller's cases are listed, in the reverse of table order (newest first), `total_cases` is their number, `active_cases` counts status 'active' and is at most the total, both are 0 with no cases, and the caller's newest notifications are listed, min(10, their number) of them, newest first |
| Counselor.OthersCasesInvisible | app/routes/counselor.py:13 | Adding another counselor's case leaves the caller's dashboard unchanged |
| Counselor.AssignedCases | app/routes/counselor.py:33 | Exactly the cases assigned to the caller are listed |
| Counselor.AssignedCasesAreDashboardCases | app/routes/counselor.py:13-33 | The case list page and the dashboard list the same cases with the same multiplicities, and the list's length is the dashboard's `total_cases` |
| Counselor.Analytics | app/routes/counselor.py:82-87 | Each count is an exact-status filter over all cases, and active + closed + pending <= total |
| Counselor.NewNote | app/routes/counselor.py:52-57 | A note belongs to the case and the caller; the note type is 'general' only when the key is absent |
| Counselor.AddNote | app/routes/counselor.py:51-61 | Success iff the insert returns; then the note is appended; otherwise 400 with the exception text and no change; a returned insert is answered with success echoing its first returned row, or null when it returned none, under `'note'` and nothing else |
| Counselor.AddNoteRoute | app/routes/counselor.py:36-61 | Only a caller whose stored role is 'counselor' can add a note, and such a caller gets exactly the outcome of adding the note to that case as that user |
| Admin.Dashboard | app/routes/admin.py:12-24 | Each of the three counts is its table's size when that table's reply carries a count and 0 otherwise; the recent reports are the ten newest, newest first |
| Admin.StoredReportHeadsDashboard | app/routes/admin.py:13-24 | A stored report heads the recent reports, pushes out the oldest of a full list, raises the report count by one when it is known, and moves no other count |
| Admin.Analytics | app/routes/admin.py:52-75 | Totals are table sizes, status counts are exact filters, pending + resolved <= total reports, active + closed <= total cases, and empty tables give all zeros |
| Admin.NewReportCountsAsPending | app/routes/admin.py:66-69 | Storing a pending report raises the total and pending counts by one and leaves every other count as it was |
| Admin.EditColumns | app/routes/admin.py:41-45 | Exactly role, full name and `is_active` are written; `is_active` defaults to true only when the key is absent |
| Admin.EditUser | app/routes/admin.py:39-46 | Only the named user's row changes: the three columns take their new values and every other column keeps its value |
| Admin.EditWithoutRoleLocksOut | app/routes/admin.py:42 | An edit whose payload has no role writes null, and every role-guarded route then refuses that user |
| Admin.SoftDelete | app/routes/admin.py:48-50 | No row is removed; only the named row's `is_active` becomes false |
| Admin.SoftDeleteIdempotent | app/routes/admin.py:49 | Deleting twice equals deleting once, and every other column keeps its value |
| Admin.SoftDeleteKeepsAccess | app/routes/admin.py:49 | The guard never reads `is_active`: a soft-deleted user with a live session passes every guard it passed before |
| Admin.SettingsMap | app/routes/admin.py:83-84 | Every row's key is in the settings map |
| Admin.SettingsOnlyRowKeys | app/routes/admin.py:84 | The settings map has no key that no row has |
| Admin.SettingsLastWins | app/routes/admin.py:84 | With duplicate keys, a key's value comes from the last row that has it |
| Admin.Upsert | app/routes/admin.py:89-92 | The table grows by one row exactly when no row holds the key, and otherwise keeps its length |
| Admin.ReplaceAbsentKey | app/routes/admin.py:89-92 | Replacing a key no row holds leaves the table as it was |
| Admin.ReplaceKeyThenGet | app/routes/admin.py:84-92 | Replacing a key some row holds sets that key to the new value in the settings map and changes no other key |
| Admin.UpsertThenGet | app/routes/admin.py:84-92 | The settings map read after an upsert is the map before it with the upserted key set to its new value |
| Admin.SaveOneMore | app/routes/admin.py:88-92 | Saving one more payload entry with a fresh key sets that key and keeps every entry saved before and every untouched key |
| Admin.SaveSettings | app/routes/admin.py:84-94 | In the settings map read back from the saved table: every upsert up to the first failing one is applied, keys not in the payload keep their value, and no other key appears; the reply is success iff nothing failed |
| Query.Where | app/routes/student.py:14 | The filtered rows are rows of the table that the filter accepts, and every accepted row is among them |
| Query.WhereMultiplicity | app/routes/student.py:14 | Filtering keeps each accepted row exactly as often as the table holds it and drops every other row |
| Query.NewestFirst | app/routes/student.py:14 | The newest-first listing has the table's length, and its i-th row is the i-th newest |
| Query.NewestFirstPermutes | app/routes/student.py:14 | The newest-first listing is a permutation of the table |
| Query.Newest | app/routes/student.py:28 | Filtering, newest-first order and a limit of n give min(n, matches) rows, the i-th being the i-th newest match |
| Store.TableOrEmpty | app/routes/student.py:13-17 | A query that raises lists nothing; one that answers lists the table it returned |
| Store.Append | app/routes/student.py:47-56 | A raising insert leaves the table as it was; a returning one keeps every earlier row in place and adds the new row at the end |
| Admin.ReplaceKey | app/routes/admin.py:88-92 | The upsert of an existing key replaces every row holding that key with the new setting and leaves every other row and the table's length as they were |
| Query.Latest | app/routes/student.py:14 | The filtered rows newest first: as many as the filter accepts, the i-th being the i-th newest accepted row |
| Query.Limit | app/routes/student.py:28 | At most n rows, a prefix of the listing, and exactly n when the listing has that many |
| Query.CountDisjoint | app/routes/admin.py:66-73 | Counts of two filters that never accept the same row add up to the count of their union, so they never exceed the total |
| Store.RowOf | app/routes/auth.py:31 | A row is read only from a lookup that returned a non-empty row, and every such lookup yields its row |
| Store.EchoFirst | app/routes/guest.py:56-58 | A raised insert gives 400 with its text; a returned one gives success echoing the first row, or null when none was echoed, and the body holds `success` and that key only |
| Store.UpdateWhereId | app/routes/admin.py:49 | An update by id changes only that row, sets the given columns, and keeps every other column; an unknown id changes nothing |

## Left out

- The browser script `app/static/js/main.js`, the application factory `app/__init__.py`, the serverless entry `api/index.py` and the template-only routes in `app/routes/main.py`: they are UI, configuration and wiring, with no decisions of the core.
- Template rendering: a page handler's result is the values it renders with (`Http.Page`), or opaque redirect targets (`Http.Target`).
- GET handlers that only list rows: guest dashboard, request status and exam schedule; student report status, counselling status, notifications and resources; counselor case notes and student history; admin users, security and backup. Each is a filter, order or limit already covered by `Query` and the dashboards modelled above. Ordering by `exam_date` and by `created_at` on the users table is not modelled, because the model keeps no timestamps.
- The teacher's reports, cases and profile routes and the counselor/admin profile and manage-guidance POSTs: the teacher routes fail in the same way as the teacher dashboard (`request.app`), and the rest are plain column updates or inserts like those modelled.
- Store failures in handlers without a `try` (the teacher dashboard queries at app/routes/teacher.py:12-16, the counselor and admin routes, the student profile update, the admin user edit and delete, the settings reads): these raise, the request ends in HTTP 500 and nothing is written. The model does not carry that outcome through those members. `Admin.SaveSettings` does, with `firstFailure`.
- The handlers take the caller's id from the users row (`user['id']`); the model uses the session's `user_id`, which is the id that row was looked up by. A row without an `id` column, which would raise a `KeyError`, is not modelled.
- Request bodies that are not JSON objects (`request.get_json()` returning `None` or a list), and floating-point JSON numbers.
- The internals of the authentication service (password checking, token issue) and of the data store (row ids, timestamps, foreign keys, the `count='exact'` protocol): each is an oracle parameter.
- The id the store gives a new report: `Anonymous.Submit` appends a `Records.Report`, which has no id column, while tracking reads the stored rows as JSON objects with their ids. `Anonymous.StoredReportIsTrackable` is therefore stated for any row appended with a fresh id, not for the `Records.Report` value itself.
- The second `get_current_user()` each handler makes after the guard: the model reuses the guard's lookup. Were the second lookup to find no user, `user['id']` would raise a `TypeError`, giving 400 with no insert in the submit handlers that wrap it in a `try`, and HTTP 500 elsewhere.
- AuthRoutes.LoginRole: the 'student' fallback at app/routes/auth.py:31 is taken only when the users lookup answers with no data (`LookupData(None)`). With the Python client, `.single()` at app/routes/auth.py:28 raises when no row has the id, as `Anonymous.SingleById` models. That case is `LookupRaised`, which `AuthRoutes.Login` answers with 401 before the role is read. So a user with no users row reaches the fallback, and `AuthRoutes.FallbackStudentIsTurnedAway`, only with a client that returns empty data instead of raising.
- Admin.SettingsMap: the map is stated through its keys here; which value a key holds is the separate lemma `Admin.SettingsLastWins`, and the absence of other keys is `Admin.SettingsOnlyRowKeys`.
- Admin.SaveSettings: assumes the payload's keys are distinct, as the keys of a decoded JSON object are. The table's `key` column is taken to be its conflict key, so an upsert replaces the row holding that key.

## Findings

| source | as written | input that shows it | evidently intended | confidence | as-written member | corrected member |
|---|---|---|---|---|---|---|
| app/routes/auth.py:30-32 | Login writes `user_id` and `user_role` into the session before it reads `auth_response.session.access_token` and before `redirect_map.get(role)`, all inside the `try` | sign-in returns a user but no session object (or the users row holds a list as its role): the reply is 401, yet the session names the user | a failed login leaves the session as it was | low; not executed | AuthRoutes.Login, AuthRoutes.LoginFailureLeavesSessionSignedIn | AuthRoutes.LoginAtomic, AuthRoutes.LoginAtomicAgrees |
| app/routes/teacher.py:10 | the teacher dashboard reaches the store through `request.app.supabase`, and Flask's request object has no `app` attribute | any signed-in teacher opening /teacher/dashboard gets HTTP 500 | use `current_app.supabase`, as `submit_incident` in the same file does | high; not executed | Teacher.DashboardAsWritten | Teacher.DashboardIntended, Teacher.IncidentHeadsDashboard |

=== FILE: access.dfy ===
/**
 * The access guard of every protected route: the session's user id, the
 * users-table row it names, and the roles the route allows decide whether
 * the handler runs or the caller is turned away.
 */
module Access {
  import opened Maybe
  import opened JsonValue
  import opened Http
  import opened Store

  /**
   * The session keys the core reads and writes. `None` means the key is not
   * in the session at all, which differs from a key holding an empty value.
   */
  datatype Session = Session(userId: Option<Id>, userRole: Option<Json>, accessToken: Option<string>)

  /** The session after `session.clear()`. */
  const Cleared: Session := Session(None, None, None)

  /**
   * The signed-in user's row. `lookup` is what the users table answered when
   * asked for the session's user id; it is consulted only for a non-empty id.
   */
  function CurrentUser(s: Session, lookup: Lookup): (u: Option<Object>)
    ensures s.userId.None? || s.userId == Some("") ==> u.None?
    ensures lookup.LookupRaised? ==> u.None?
    ensures u.Some? <==> s.userId.Some? && s.userId.value != "" && RowOf(lookup).Some?
    ensures u.Some? ==> u == RowOf(lookup) && u.value != map[]
  {
    if s.userId.None? || s.userId.value == "" then None else RowOf(lookup)
  }

  /** `user.get('role') in roles`, for a list of role names. */
  predicate HasRole(user: Object, roles: seq<string>) {
    Get(user, "role").JStr? && Get(user, "role").s in roles
  }

  /** Python truthiness of the decorator's `roles` argument. */
  predicate Restricted(roles: Option<seq<string>>) {
    roles.Some? && |roles.value| > 0
  }

  datatype Decision = Proceed | Deny(response: Response)

  /** The reply to a caller with no `user_id` in the session. */
  function Unauthenticated(isJson: bool): Response {
    if isJson then Error(401, "Authentication required") else RedirectTo(LoginPage)
  }

  /** The reply to a signed-in caller whose stored role is not allowed. */
  function Forbidden(isJson: bool): Response {
    if isJson then Error(403, "Insufficient permissions") else RedirectTo(HomePage)
  }

  /**
   * `require_auth(roles)`: the handler proceeds exactly when the session has a
   * `user_id` key and either no roles are required or the role stored in the
   * users table is one of them; the role cached in the session plays no part.
   */
  function RequireAuth(s: Session, lookup: Lookup, roles: Option<seq<string>>, isJson: bool): (d: Decision)
    ensures d.Proceed? <==>
              s.userId.Some? &&
              (!Restricted(roles) || (CurrentUser(s, lookup).Some? && HasRole(CurrentUser(s, lookup).value, roles.value)))
    ensures s.userId.None? ==> d == Deny(Unauthenticated(isJson))
    ensures s.userId.Some? && d.Deny? ==> Restricted(roles) && d == Deny(Forbidden(isJson))
  {
    if s.userId.None? then
      Deny(Unauthenticated(isJson))
    else if Restricted(roles) then
      var user := CurrentUser(s, lookup);
      if user.None? || !HasRole(user.value, roles.value) then Deny(Forbidden(isJson)) else Proceed
    else
      Proceed
  }

  /** The caller's stored role is `role`. */
  predicate StoredRoleIs(s: Session, lookup: Lookup, role: string) {
    CurrentUser(s, lookup).Some? && Get(CurrentUser(s, lookup).value, "role") == JStr(role)
  }

  /**
   * A route guarded by one role (`@require_auth(roles=[role])`, the form every
   * blueprint uses) runs exactly for a signed-in caller whose stored role is
   * that role.
   */
  lemma SingleRoleGuard(s: Session, lookup: Lookup, role: string, isJson: bool)
    ensures RequireAuth(s, lookup, Some([role]), isJson).Proceed? <==> StoredRoleIs(s, lookup, role)
  {
    if StoredRoleIs(s, lookup, role) {
      assert HasRole(CurrentUser(s, lookup).value, [role]);
    }
  }

  /** The decision reads the role from the users table, never from the session. */
  lemma GuardIgnoresSessionRole(s: Session, lookup: Lookup, roles: Option<seq<string>>, isJson: bool, cached: Option<Json>)
    ensures RequireAuth(s.(userRole := cached), lookup, roles, isJson) == RequireAuth(s, lookup, roles, isJson)
  {
  }

  /**
   * With no roles (`None` or an empty list) the guard asks only for a
   * `user_id` key, even an empty one, and never looks the user up.
   */
  lemma UnrestrictedNeedsOnlySession(s: Session, lookup: Lookup, lookup': Lookup, roles: Option<seq<string>>, isJson: bool)
    requires !Restricted(roles)
    ensures RequireAuth(s, lookup, roles, isJson) == RequireAuth(s, lookup', None, isJson)
    ensures RequireAuth(s, lookup, roles, isJson).Proceed? <==> s.userId.Some?
  {
  }

  /**
   * Allowing more roles never turns an admitted caller away: if every role
   * of `roles` is also in `wider`, whoever `roles` admits, `wider` admits.
   */
  lemma WiderRolesAdmitMore(s: Session, lookup: Lookup, roles: seq<string>, wider: seq<string>, isJson: bool)
    requires |roles| > 0
    requires forall i :: 0 <= i < |roles| ==> roles[i] in wider
    ensures RequireAuth(s, lookup, Some(roles), isJson).Proceed? ==> RequireAuth(s, lookup, Some(wider), isJson).Proceed?
  {
    if RequireAuth(s, lookup, Some(roles), isJson).Proceed? {
      var role := Get(CurrentUser(s, lookup).value, "role").s;
      var i :| 0 <= i < |roles| && roles[i] == role;
      assert role in wider;
    }
  }

  /** A session id that is present but empty passes the key check but names no user. */
  lemma EmptyUserIdIsNoUser(s: Session, lookup: Lookup, roles: seq<string>, isJson: bool)
    requires s.userId == Some("")
    ensures RequireAuth(s, lookup, None, isJson).Proceed?
    ensures |roles| > 0 ==> RequireAuth(s, lookup, Some(roles), isJson) == Deny(Forbidden(isJson))
  {
  }
}

=== FILE: admin.dfy ===
/**
 * The `admin` blueprint: dashboard counts, analytics, user edits and soft
 * deletion, and the system settings. Every route is guarded by the role
 * `'admin'`.
 */
module Admin {
  import opened Maybe
  import opened JsonValue
  import opened Http
  import opened Store
  import opened Access
  import opened Records
  import opened Query

  const AdminOnly: Option<seq<string>> := Some(["admin"])

  datatype DashboardCounts = DashboardCounts(users: nat, reports: nat, cases: nat, recentReports: seq<Report>)

  /**
   * GET /admin/dashboard: each count is the table's exact row count when the
   * store's reply for that table carries a count and 0 when it does not
   * (`usersCounted`, `reportsCounted` and `casesCounted` are the three
   * `hasattr(..., 'count')` tests); the recent reports are the ten newest.
   */
  function Dashboard(users: map<Id, Object>, reports: seq<Report>, cases: seq<Case>,
                     usersCounted: bool, reportsCounted: bool, casesCounted: bool): (d: DashboardCounts)
    ensures d.users == if usersCounted then |users| else 0
    ensures d.reports == if reportsCounted then |reports| else 0
    ensures d.cases == if casesCounted then |cases| else 0
    ensures |d.recentReports| == if |reports| < 10 then |reports| else 10
    ensures forall i :: 0 <= i < |d.recentReports| ==> d.recentReports[i] == reports[|reports| - 1 - i]
  {
    DashboardCounts(if usersCounted then |users| else 0, if reportsCounted then |reports| else 0,
                    if casesCounted then |cases| else 0, Limit(NewestFirst(reports), 10))
  }

  /**
   * A stored report heads the recent reports, pushes out the oldest of a
   * full list, and raises the report count by one when the count is known;
   * the user and case counts do not move.
   */
  lemma StoredReportHeadsDashboard(users: map<Id, Object>, reports: seq<Report>, cases: seq<Case>, r: Report,
                                   usersCounted: bool, reportsCounted: bool, casesCounted: bool)
    ensures var before := Dashboard(users, reports, cases, usersCounted, reportsCounted, casesCounted);
            var after := Dashboard(users, reports + [r], cases, usersCounted, reportsCounted, casesCounted);
            && after.recentReports[0] == r
            && after.recentReports[1..] == (if |before.recentReports| == 10 then before.recentReports[..9] else before.recentReports)
            && after.reports == (if reportsCounted then before.reports + 1 else 0)
            && after.users == before.users && after.cases == before.cases
  {
    var before := Dashboard(users, reports, cases, usersCounted, reportsCounted, casesCounted);
    var after := Dashboard(users, reports + [r], cases, usersCounted, reportsCounted, casesCounted);
    var rest := if |before.recentReports| == 10 then before.recentReports[..9] else before.recentReports;
    assert |after.recentReports[1..]| == |rest|;
    forall i | 0 <= i < |rest|
      ensures after.recentReports[1..][i] == rest[i]
    {
      assert after.recentReports[i + 1] == (reports + [r])[|reports| - 1 - i];
    }
  }

  datatype Stats = Stats(totalReports: nat, pendingReports: nat, resolvedReports: nat,
                         totalCases: nat, activeCases: nat, closedCases: nat)

  /** GET /admin/analytics: totals and exact-status counts over all reports and cases. */
  function Analytics(reports: seq<Report>, cases: seq<Case>): (st: Stats)
    ensures st.totalReports == |reports| && st.totalCases == |cases|
    ensures st.pendingReports == Count(reports, ReportStatus("pending"))
    ensures st.resolvedReports == Count(reports, ReportStatus("resolved"))
    ensures st.activeCases == Count(cases, CaseStatus("active"))
    ensures st.closedCases == Count(cases, CaseStatus("closed"))
    ensures st.pendingReports + st.resolvedReports <= st.totalReports
    ensures st.activeCases + st.closedCases <= st.totalCases
    ensures reports == [] && cases == [] ==> st == Stats(0, 0, 0, 0, 0, 0)
  {
    CountDisjoint(reports, ReportStatus("pending"), ReportStatus("resolved"));
    CountDisjoint(cases, CaseStatus("active"), CaseStatus("closed"));
    Stats(|reports|, Count(reports, ReportStatus("pending")), Count(reports, ReportStatus("resolved")),
          |cases|, Count(cases, CaseStatus("active")), Count(cases, CaseStatus("closed")))
  }

  /**
   * Every new report starts pending: storing one raises the total and the
   * pending count by one and leaves the resolved count and all case counts
   * as they were.
   */
  lemma NewReportCountsAsPending(reports: seq<Report>, cases: seq<Case>, r: Report)
    requires r.status == Pending
    ensures var before := Analytics(reports, cases);
            var after := Analytics(reports + [r], cases);
            && after.totalReports == before.totalReports + 1
            && after.pendingReports == before.pendingReports + 1
            && after.resolvedReports == before.resolvedReports
            && after.totalCases == before.totalCases
            && after.activeCases == before.activeCases
            && after.closedCases == before.closedCases
  {
    WhereAppend(reports, r, ReportStatus("pending"));
    WhereAppend(reports, r, ReportStatus("resolved"));
  }

  /** The columns PUT /admin/users/<id> writes; `is_active` defaults to true only when absent. */
  function EditColumns(data: Object): (c: Object)
    ensures c.Keys == {"role", "full_name", "is_active"}
    ensures c["role"] == Get(data, "role") && c["full_name"] == Get(data, "full_name")
    ensures c["is_active"] == if "is_active" in data then data["is_active"] else JBool(true)
  {
    map["role" := Get(data, "role"), "full_name" := Get(data, "full_name"), "is_active" := GetOr(data, "is_active", JBool(true))]
  }

  /** PUT /admin/users/<id>: only that user's row changes. */
  function EditUser(users: map<Id, Object>, id: Id, data: Object): (u: map<Id, Object>)
    ensures u.Keys == users.Keys
    ensures forall k :: k in users && k != id ==> u[k] == users[k]
    ensures id in users ==> id in u && Get(u[id], "role") == Get(data, "role")
    ensures id in users ==> id in u && forall c :: c in EditColumns(data) ==> c in u[id] && u[id][c] == EditColumns(data)[c]
    ensures id in users ==> id in u && forall c :: c in users[id] && c !in EditColumns(data) ==> c in u[id] && u[id][c] == users[id][c]
  {
    UpdateWhereId(users, id, EditColumns(data))
  }

  /** DELETE /admin/users/<id>: a soft delete that only clears `is_active`. */
  function SoftDelete(users: map<Id, Object>, id: Id): (u: map<Id, Object>)
    ensures u.Keys == users.Keys
    ensures forall k :: k in users && k != id ==> u[k] == users[k]
    ensures id in users ==> id in u && u[id] == users[id]["is_active" := JBool(false)]
  {
    UpdateWhereId(users, id, map["is_active" := JBool(false)])
  }

  /** Deleting twice is deleting once, and a deleted user keeps every column but `is_active`. */
  lemma SoftDeleteIdempotent(users: map<Id, Object>, id: Id)
    ensures SoftDelete(SoftDelete(users, id), id) == SoftDelete(users, id)
    ensures id in users ==> forall c :: c in users[id] && c != "is_active" ==> SoftDelete(users, id)[id][c] == users[id][c]
  {
    if id in users {
      var once := SoftDelete(users, id)[id];
      assert once + map["is_active" := JBool(false)] == once;
    }
  }

  /**
   * The guard never reads `is_active`: a soft-deleted user whose session is
   * still live passes every guard it passed before.
   */
  lemma SoftDeleteKeepsAccess(users: map<Id, Object>, id: Id, roles: Option<seq<string>>, isJson: bool)
    requires id in users
    ensures var s := Session(Some(id), None, None);
            RequireAuth(s, LookupData(Some(SoftDelete(users, id)[id])), roles, isJson) ==
            RequireAuth(s, LookupData(Some(users[id])), roles, isJson)
  {
    var row := users[id];
    var row' := SoftDelete(users, id)[id];
    assert "role" != "is_active";
    assert Get(row', "role") == Get(row, "role");
    assert "is_active" in row';
  }

  /** An edit without a role writes null into it, which locks the user out of every role-guarded route. */
  lemma EditWithoutRoleLocksOut(users: map<Id, Object>, id: Id, data: Object, roles: seq<string>, isJson: bool)
    requires id in users && id != ""
    requires "role" !in data
    requires |roles| > 0
    ensures var s := Session(Some(id), None, None);
            RequireAuth(s, LookupData(Some(EditUser(users, id, data)[id])), Some(roles), isJson) == Deny(Forbidden(isJson))
  {
  }

  /** A row of `system_settings`. */
  datatype Setting = Setting(key: string, value: Json)

  /**
   * GET /admin/settings: `{s['key']: s['value'] for s in rows}`. Every key of
   * a row is in the map.
   */
  function SettingsMap(rows: seq<Setting>): (m: map<string, Json>)
    ensures forall i :: 0 <= i < |rows| ==> rows[i].key in m
    decreases |rows|
  {
    if rows == [] then map[]
    else
      var n := |rows| - 1;
      SettingsMap(rows[..n])[rows[n].key := rows[n].value]
  }

  /** The settings map has no key that no row has. */
  lemma {:induction false} SettingsOnlyRowKeys(rows: seq<Setting>, k: string)
    requires k in SettingsMap(rows)
    ensures exists i :: 0 <= i < |rows| && rows[i].key == k
    decreases |rows|
  {
    var n := |rows| - 1;
    var prefix := rows[..n];
    assert SettingsMap(rows) == SettingsMap(prefix)[rows[n].key := rows[n].value];
    if rows[n].key != k {
      SettingsOnlyRowKeys(prefix, k);
      var i :| 0 <= i < n && prefix[i].key == k;
      assert rows[i] == prefix[i];
    }
  }

  /** With duplicate keys the later row wins: a key's value comes from the last row that has it. */
  lemma {:induction false} SettingsLastWins(rows: seq<Setting>, i: nat)
    requires i < |rows|
    requires forall j :: i < j < |rows| ==> rows[j].key != rows[i].key
    ensures SettingsMap(rows)[rows[i].key] == rows[i].value
    decreases |rows|
  {
    var n := |rows| - 1;
    var prefix := rows[..n];
    assert SettingsMap(rows) == SettingsMap(prefix)[rows[n].key := rows[n].value];
    if i < n {
      assert prefix[i] == rows[i];
      forall j | i < j < n
        ensures prefix[j].key != prefix[i].key
      {
        assert prefix[j] == rows[j];
      }
      SettingsLastWins(prefix, i);
      assert rows[n].key != rows[i].key;
    }
  }

  /** Whether some row of the settings table has `key`. */
  predicate HasKey(rows: seq<Setting>, key: string)
    decreases |rows|
  {
    rows != [] && (rows[|rows| - 1].key == key || HasKey(rows[..|rows| - 1], key))
  }

  /** The rows with every row whose key is that of `s` replaced by `s`. */
  function ReplaceKey(rows: seq<Setting>, s: Setting): (r: seq<Setting>)
    ensures |r| == |rows|
    ensures forall i :: 0 <= i < |rows| && rows[i].key == s.key ==> r[i] == s
    ensures forall i :: 0 <= i < |rows| && rows[i].key != s.key ==> r[i] == rows[i]
    decreases |rows|
  {
    if rows == [] then []
    else
      var n := |rows| - 1;
      ReplaceKey(rows[..n], s) + [if rows[n].key == s.key then s else rows[n]]
  }

  /**
   * `upsert({'key': k, 'value': v})` on `system_settings`: the row holding
   * that key takes the new value, and a new row is added when none holds it.
   */
  function Upsert(rows: seq<Setting>, s: Setting): (r: seq<Setting>)
    ensures HasKey(rows, s.key) ==> |r| == |rows|
    ensures !HasKey(rows, s.key) ==> r == rows + [s]
  {
    if HasKey(rows, s.key) then ReplaceKey(rows, s) else rows + [s]
  }

  /** Replacing a key no row holds changes nothing. */
  lemma {:induction false} ReplaceAbsentKey(rows: seq<Setting>, s: Setting)
    requires !HasKey(rows, s.key)
    ensures ReplaceKey(rows, s) == rows
    decreases |rows|
  {
    if rows != [] {
      var n := |rows| - 1;
      ReplaceAbsentKey(rows[..n], s);
      assert rows == rows[..n] + [rows[n]];
    }
  }

  /** Replacing a key some row holds sets that key, and only that key, in the settings map. */
  lemma {:induction false} ReplaceKeyThenGet(rows: seq<Setting>, s: Setting)
    requires HasKey(rows, s.key)
    ensures SettingsMap(ReplaceKey(rows, s)) == SettingsMap(rows)[s.key := s.value]
    decreases |rows|
  {
    var n := |rows| - 1;
    var prefix := rows[..n];
    var last := if rows[n].key == s.key then s else rows[n];
    assert rows == prefix + [rows[n]];
    SettingsMapSnoc(prefix, rows[n]);
    assert ReplaceKey(rows, s) == ReplaceKey(prefix, s) + [last];
    SettingsMapSnoc(ReplaceKey(prefix, s), last);
    if HasKey(prefix, s.key) {
      ReplaceKeyThenGet(prefix, s);
      if rows[n].key != s.key {
        UpdatesCommute(SettingsMap(prefix), s.key, s.value, last.key, last.value);
      }
    } else {
      ReplaceAbsentKey(prefix, s);
    }
  }

  /** Adding a row to the table sets its key in the settings map. */
  lemma SettingsMapSnoc(rows: seq<Setting>, x: Setting)
    ensures SettingsMap(rows + [x]) == SettingsMap(rows)[x.key := x.value]
  {
    assert (rows + [x])[..|rows|] == rows;
  }

  /** Updates of two different keys can be made in either order. */
  lemma UpdatesCommute(m: map<string, Json>, k1: string, v1: Json, k2: string, v2: Json)
    requires k1 != k2
    ensures m[k1 := v1][k2 := v2] == m[k2 := v2][k1 := v1]
  {
  }

  /**
   * What the settings page shows after an upsert: the upserted key maps to
   * its new value and every other key keeps its value.
   */
  lemma UpsertThenGet(rows: seq<Setting>, s: Setting)
    ensures SettingsMap(Upsert(rows, s)) == SettingsMap(rows)[s.key := s.value]
  {
    if HasKey(rows, s.key) {
      ReplaceKeyThenGet(rows, s);
    } else {
      assert (rows + [s])[..|rows|] == rows;
    }
  }

  /** How many payload entries are upserted before the first failing one. */
  function Applied(items: seq<(string, Json)>, firstFailure: Option<nat>): (n: nat)
    ensures n <= |items|
    ensures n < |items| <==> firstFailure.Some? && firstFailure.value < |items|
  {
    if firstFailure.Some? && firstFailure.value < |items| then firstFailure.value else |items|
  }

  /**
   * `after` is the settings map `before` with the first `n` payload entries
   * saved: each of them holds its new value, no other key appears, and every
   * other key keeps its value.
   */
  predicate Saved(before: map<string, Json>, after: map<string, Json>, items: seq<(string, Json)>, n: nat)
    requires n <= |items|
  {
    && (forall i :: 0 <= i < n ==> items[i].0 in after && after[items[i].0] == items[i].1)
    && (forall k :: k in after ==> k in before || exists i :: 0 <= i < n && items[i].0 == k)
    && (forall k :: k in before && (forall i :: 0 <= i < n ==> items[i].0 != k) ==> k in after && after[k] == before[k])
  }

  /** Saving one more payload entry sets its key and keeps the rest of what was saved. */
  lemma SaveOneMore(before: map<string, Json>, after: map<string, Json>, items: seq<(string, Json)>, n: nat)
    requires n < |items|
    requires forall i, j :: 0 <= i < j < |items| ==> items[i].0 != items[j].0
    requires Saved(before, after, items, n)
    ensures Saved(before, after[items[n].0 := items[n].1], items, n + 1)
  {
    var after' := after[items[n].0 := items[n].1];
    forall j | 0 <= j <= n
      ensures items[j].0 in after' && after'[items[j].0] == items[j].1
    {
      assert j < n ==> items[j].0 != items[n].0;
    }
  }

  /**
   * POST /admin/settings: one upsert per payload entry, in payload order.
   * `firstFailure` is the index of the first upsert that raises, if any; the
   * exception is uncaught, so the upserts before it stay applied and the
   * caller gets a server error. The contract is stated on the map the
   * settings page builds from the saved table.
   */
  method SaveSettings(table: seq<Setting>, items: seq<(string, Json)>, firstFailure: Option<nat>)
    returns (saved: seq<Setting>, response: Response)
    requires forall i, j :: 0 <= i < j < |items| ==> items[i].0 != items[j].0
    ensures forall i :: 0 <= i < Applied(items, firstFailure) ==>
              items[i].0 in SettingsMap(saved) && SettingsMap(saved)[items[i].0] == items[i].1
    ensures forall k :: k in SettingsMap(saved) ==>
              k in SettingsMap(table) || exists i :: 0 <= i < Applied(items, firstFailure) && items[i].0 == k
    ensures forall k :: k in SettingsMap(table) && (forall i :: 0 <= i < Applied(items, firstFailure) ==> items[i].0 != k) ==>
              k in SettingsMap(saved) && SettingsMap(saved)[k] == SettingsMap(table)[k]
    ensures response == (if Applied(items, firstFailure) < |items| then ServerError else Success(map[]))
  {
    saved := table;
    var i := 0;
    while i < |items| && (firstFailure.None? || i < firstFailure.value)
      invariant 0 <= i <= |items|
      invariant firstFailure.Some? ==> i <= firstFailure.value
      invariant Saved(SettingsMap(table), SettingsMap(saved), items, i)
    {
      var s := Setting(items[i].0, items[i].1);
      SaveOneMore(SettingsMap(table), SettingsMap(saved), items, i);
      UpsertThenGet(saved, s);
      saved := Upsert(saved, s);
      i := i + 1;
    }
    response := if i < |items| then ServerError else Success(map[]);
  }
}

=== FILE: anonymous.dfy ===
/**
 * The `anonymous` blueprint: report submission and tracking, with no access
 * guard at all; neither operation takes a session.
 */
module Anonymous {
  import opened Maybe
  import opened JsonValue
  import opened Http
  import opened Store
  import opened Records
  import opened Query

  /** The row POST /anonymous/report inserts: no author, flagged anonymous. */
  function NewReport(data: Object): (r: Report)
    ensures r.userId.None? && r.studentId.None?
    ensures r.status == Pending && r.reportedBy == JStr("anonymous") && r.isAnonymous == Some(true)
    ensures r.title == Get(data, "title") && r.description == Get(data, "description") && r.category == Get(data, "category")
  {
    Report(None, Get(data, "title"), Get(data, "description"), Get(data, "category"), None, Pending, JStr("anonymous"), Some(true))
  }

  /** `str(KeyError('id'))`: the text when the echoed row has no id. */
  const MissingId := "'id'"

  /**
   * The reply: `report.data[0]['id'] if report.data else None`. An echoed
   * row without an id raises inside the `try`, so the caller gets 400 even
   * though the row was stored.
   */
  function SubmitReply(insert: InsertOutcome): (r: Response)
    ensures insert.InsertRaised? ==> r == Error(400, insert.message)
    ensures insert.InsertReturned? && insert.rows == [] ==> r == Success(map["report_id" := JNull])
    ensures insert.InsertReturned? && insert.rows != [] && "id" in insert.rows[0] ==>
              r == Success(map["report_id" := insert.rows[0]["id"]])
    ensures insert.InsertReturned? && insert.rows != [] && "id" !in insert.rows[0] ==> r == Error(400, MissingId)
  {
    match insert
    case InsertRaised(m) => Error(400, m)
    case InsertReturned(rows) =>
      if rows == [] then Success(map["report_id" := JNull])
      else if "id" in rows[0] then Success(map["report_id" := rows[0]["id"]])
      else Error(400, MissingId)
  }

  /** POST /anonymous/report over the reports table. */
  function Submit(table: seq<Report>, data: Object, insert: InsertOutcome): (r: (Response, seq<Report>))
    ensures insert.InsertReturned? ==> r.1 == table + [NewReport(data)]
    ensures insert.InsertRaised? ==> r == (Error(400, insert.message), table)
    ensures IsSuccess(r.0) ==> r.1 == table + [NewReport(data)] && "report_id" in r.0.body
    ensures insert.InsertReturned? && insert.rows == [] ==> r.0 == Success(map["report_id" := JNull])
    ensures insert.InsertReturned? && insert.rows != [] && "id" in insert.rows[0] ==>
              r.0 == Success(map["report_id" := insert.rows[0]["id"]])
    ensures insert.InsertReturned? && insert.rows != [] && "id" !in insert.rows[0] ==>
              r == (Error(400, MissingId), table + [NewReport(data)])
  {
    (SubmitReply(insert), Append(table, NewReport(data), insert))
  }

  /**
   * An anonymous report never shows up among any user's own reports: the
   * filtered table is the same before and after the submission.
   */
  lemma AnonymousReportIsNobodys(table: seq<Report>, data: Object, insert: InsertOutcome, user: Id)
    ensures Where(Submit(table, data, insert).1, ReportOf(user)) == Where(table, ReportOf(user))
  {
    if insert.InsertReturned? {
      WhereAppend(table, NewReport(data), ReportOf(user));
    }
  }

  /** What GET /anonymous/track/<id> renders: the row (or an empty one) and an optional error. */
  datatype TrackView = TrackView(report: Object, error: Option<string>)

  /**
   * A failed lookup renders an empty report with "Report not found"; a
   * lookup with no data renders an empty report and no error.
   */
  function Track(lookup: Lookup): (v: TrackView)
    ensures v.error.Some? <==> lookup.LookupRaised?
    ensures v.error.Some? ==> v.error.value == "Report not found" && v.report == map[]
    ensures v.report != map[] ==> lookup == LookupData(Some(v.report))
    ensures RowOf(lookup).Some? ==> v.report == RowOf(lookup).value
  {
    match lookup
    case LookupRaised(_) => TrackView(map[], Some("Report not found"))
    case LookupData(_) => TrackView(if RowOf(lookup).Some? then RowOf(lookup).value else map[], None)
  }

  /** Whether a stored row's `id` column holds `id`. */
  function HasId(id: Json): Object -> bool {
    row => "id" in row && row["id"] == id
  }

  /**
   * `.eq('id', report_id).single()` over the stored rows: exactly one match
   * is returned, while no match or several matches raise with the store's
   * `message`.
   */
  function SingleById(rows: seq<Object>, id: Json, message: string): (l: Lookup)
    ensures l.LookupData? <==> Count(rows, HasId(id)) == 1
    ensures l.LookupData? ==> l.data.Some? && l.data.value in rows && HasId(id)(l.data.value)
    ensures l.LookupRaised? ==> l.message == message
  {
    var hits := Where(rows, HasId(id));
    if |hits| == 1 then LookupData(Some(hits[0])) else LookupRaised(message)
  }

  /**
   * Tracking an id shows the one stored row that has it, and "Report not
   * found" when no row or several rows have it.
   */
  lemma TrackById(rows: seq<Object>, id: Json, message: string)
    ensures var v := Track(SingleById(rows, id, message));
            && (v.error.Some? <==> Count(rows, HasId(id)) != 1)
            && (Count(rows, HasId(id)) == 1 ==> v.report in rows && "id" in v.report && v.report["id"] == id)
  {
  }

  /** A stored report whose id no earlier row has is tracked by that id, and shows exactly that row. */
  lemma StoredReportIsTrackable(rows: seq<Object>, row: Object, message: string)
    requires "id" in row
    requires Count(rows, HasId(row["id"])) == 0
    ensures Track(SingleById(rows + [row], row["id"], message)) == TrackView(row, None)
  {
    WhereAppend(rows, row, HasId(row["id"]));
  }
}

=== FILE: auth_routes.dfy ===
/**
 * The `auth` blueprint: login, registration and logout as transitions of the
 * session (and, for registration, of the users table). The external
 * authentication service is an oracle whose answer is a parameter.
 */
module AuthRoutes {
  import opened Maybe
  import opened JsonValue
  import opened Http
  import opened Store
  import opened Access

  datatype AuthUser = AuthUser(id: Id)
  datatype AuthSession = AuthSession(accessToken: string)

  /** What `sign_in_with_password` or `sign_up` did: raised, or answered. */
  datatype AuthReply =
    | AuthRaised(message: string)
    | AuthAnswered(user: Option<AuthUser>, session: Option<AuthSession>)

  /** The text of the exception raised by reading `.access_token` of `None`. */
  const NoAccessToken := "'NoneType' object has no attribute 'access_token'"

  /** `redirect_map`: the dashboard of each of the five roles that has one. */
  const RedirectMap: map<string, string> := map[
    "student" := "/student/dashboard",
    "guest" := "/guest/dashboard",
    "teacher" := "/teacher/dashboard",
    "counselor" := "/counselor/dashboard",
    "admin" := "/admin/dashboard"]

  /** Where `redirect_map.get(role, '/')` points, or the `TypeError` it raises. */
  datatype Landing = Path(path: string) | Unhashable(message: string)

  function LandingFor(role: Json): (l: Landing)
    ensures l.Unhashable? <==> role.JArr? || role.JObj?
    ensures l.Path? && l.path != "/" ==> role.JStr? && role.s in RedirectMap
    ensures role.JStr? && role.s in RedirectMap ==> l == Path(RedirectMap[role.s])
    ensures role.JStr? && role.s !in RedirectMap ==> l == Path("/")
  {
    match role
    case JArr(_) => Unhashable("unhashable type: 'list'")
    case JObj(_) => Unhashable("unhashable type: 'dict'")
    case JStr(name) => Path(if name in RedirectMap then RedirectMap[name] else "/")
    case _ => Path("/")
  }

  /** `user.data.get('role') if user.data else 'student'` */
  function LoginRole(row: Option<Object>): (role: Json)
    ensures row.None? ==> role == JStr("student")
    ensures row.Some? && "role" in row.value ==> role == row.value["role"]
    ensures row.Some? && "role" !in row.value ==> role == JNull
  {
    if row.Some? then Get(row.value, "role") else JStr("student")
  }

  /** Both credentials are present and truthy. */
  predicate HasCredentials(data: Object) {
    Truthy(Get(data, "email")) && Truthy(Get(data, "password"))
  }

  /**
   * POST /auth/login as written. The session keys are assigned one by one,
   * so an exception after the first assignment returns 401 while the session
   * already names the new user.
   */
  function Login(s: Session, data: Object, signIn: AuthReply, lookup: Lookup): (r: (Response, Session))
    ensures !HasCredentials(data) ==> r == (Error(400, "Email and password required"), s)
    ensures HasCredentials(data) && signIn.AuthRaised? ==> r == (Error(401, signIn.message), s)
    ensures HasCredentials(data) && signIn.AuthAnswered? && signIn.user.None? ==> r == (Error(401, "Invalid credentials"), s)
    ensures HasCredentials(data) && signIn.AuthAnswered? && signIn.user.Some? && lookup.LookupRaised? ==>
              r == (Error(401, lookup.message), s)
    ensures IsSuccess(r.0) <==>
              HasCredentials(data) && signIn.AuthAnswered? && signIn.user.Some? && signIn.session.Some? &&
              lookup.LookupData? && LandingFor(LoginRole(RowOf(lookup))).Path?
    ensures IsSuccess(r.0) && signIn.AuthAnswered? && signIn.user.Some? && signIn.session.Some? ==>
              && r.1 == Session(Some(signIn.user.value.id), Some(LoginRole(RowOf(lookup))), Some(signIn.session.value.accessToken))
              && r.0.body == map["success" := JBool(true), "redirect" := JStr(LandingFor(LoginRole(RowOf(lookup))).path)]
    ensures r.0.Reply? && r.0.status != 400 && r.0.status != 401 ==> IsSuccess(r.0)
    ensures HasCredentials(data) && signIn.AuthAnswered? && signIn.user.Some? && lookup.LookupData? && !IsSuccess(r.0) ==>
              && r.0.Reply? && r.0.status == 401
              && r.1.userId == Some(signIn.user.value.id)
              && r.1.userRole == Some(LoginRole(RowOf(lookup)))
    ensures HasCredentials(data) && signIn.AuthAnswered? && signIn.user.Some? && signIn.session.None? && lookup.LookupData? ==>
              r.0 == Error(401, NoAccessToken) && r.1.accessToken == s.accessToken
  {
    if !HasCredentials(data) then
      (Error(400, "Email and password required"), s)
    else
      match signIn
      case AuthRaised(m) => (Error(401, m), s)
      case AuthAnswered(user, authSession) =>
        if user.None? then
          (Error(401, "Invalid credentials"), s)
        else if lookup.LookupRaised? then
          (Error(401, lookup.message), s)
        else
          var role := LoginRole(RowOf(lookup));
          var s1 := s.(userId := Some(user.value.id), userRole := Some(role));
          if authSession.None? then
            (Error(401, NoAccessToken), s1)
          else
            var s2 := s1.(accessToken := Some(authSession.value.accessToken));
            match LandingFor(role)
            case Unhashable(m) => (Error(401, m), s2)
            case Path(p) => (Success(map["redirect" := JStr(p)]), s2)
  }

  /**
   * Login with every session key written together, only once all of them
   * and the landing path are known: the evidently intended behaviour.
   */
  function LoginAtomic(s: Session, data: Object, signIn: AuthReply, lookup: Lookup): (r: (Response, Session))
    ensures !IsSuccess(r.0) ==> r.1 == s
    ensures IsSuccess(r.0) ==> signIn.AuthAnswered? && signIn.user.Some? && signIn.session.Some?
    ensures IsSuccess(r.0) && signIn.AuthAnswered? && signIn.user.Some? && signIn.session.Some? ==>
              r.1 == Session(Some(signIn.user.value.id), Some(LoginRole(RowOf(lookup))), Some(signIn.session.value.accessToken))
  {
    var (response, s') := Login(s, data, signIn, lookup);
    if IsSuccess(response) then (response, s') else (response, s)
  }

  /** GET /auth/logout: the session is emptied and the caller sent home. */
  function Logout(s: Session): (r: (Response, Session))
    ensures r.1.userId.None? && r.1.userRole.None? && r.1.accessToken.None?
    ensures r.0 == RedirectTo(HomePage)
  {
    (RedirectTo(HomePage), Cleared)
  }

  /** All three registration fields are present and truthy. */
  predicate HasRegistration(data: Object) {
    Truthy(Get(data, "email")) && Truthy(Get(data, "password")) && Truthy(Get(data, "full_name"))
  }

  /** The users row registration inserts; the role defaults to `'student'` only when absent. */
  function RegisteredRow(id: Id, data: Object): (row: Object)
    ensures row.Keys == {"id", "email", "full_name", "role"}
    ensures row["id"] == JStr(id) && row["email"] == Get(data, "email") && row["full_name"] == Get(data, "full_name")
    ensures "role" in data ==> row["role"] == data["role"]
    ensures "role" !in data ==> row["role"] == JStr("student")
  {
    map["id" := JStr(id), "email" := Get(data, "email"), "full_name" := Get(data, "full_name"),
        "role" := GetOr(data, "role", JStr("student"))]
  }

  /**
   * POST /auth/register over the users table. `insert` is what the users
   * insert did. An insert never replaces a row: a duplicate id makes the
   * store raise, so the store cannot report `Written` for an id already in
   * the table.
   */
  function Register(users: map<Id, Object>, data: Object, signUp: AuthReply, insert: WriteOutcome): (r: (Response, map<Id, Object>))
    requires signUp.AuthAnswered? && signUp.user.Some? && insert.Written? ==> signUp.user.value.id !in users
    ensures !HasRegistration(data) ==> r == (Error(400, "All fields required"), users)
    ensures !IsSuccess(r.0) ==> r.1 == users && r.0.Reply? && r.0.status == 400
    ensures IsSuccess(r.0) <==> HasRegistration(data) && signUp.AuthAnswered? && signUp.user.Some? && insert.Written?
    ensures IsSuccess(r.0) && signUp.AuthAnswered? && signUp.user.Some? ==>
              && signUp.user.value.id !in users
              && r.1 == users[signUp.user.value.id := RegisteredRow(signUp.user.value.id, data)]
              && r.0.body == map["success" := JBool(true), "message" := JStr("Registration successful")]
  {
    if !HasRegistration(data) then
      (Error(400, "All fields required"), users)
    else
      match signUp
      case AuthRaised(m) => (Error(400, m), users)
      case AuthAnswered(user, _) =>
        if user.None? then
          (Error(400, "Registration failed"), users)
        else
          match insert
          case WriteRaised(m) => (Error(400, m), users)
          case Written =>
            var id := user.value.id;
            (Success(map["message" := JStr("Registration successful")]), users[id := RegisteredRow(id, data)])
  }

  /**
   * Missing credentials are rejected before the authentication service or
   * the users table is consulted: their answers cannot change the outcome.
   */
  lemma ValidationPrecedesSignIn(s: Session, data: Object, a: AuthReply, a': AuthReply, l: Lookup, l': Lookup)
    requires !HasCredentials(data)
    ensures Login(s, data, a, l) == Login(s, data, a', l')
  {
  }

  /**
   * The five roles land on five different dashboards, none of them '/';
   * every other role string, and every non-string role that can be hashed,
   * lands on '/'.
   */
  lemma LandingPathsDistinct(a: string, b: string, other: Json)
    ensures a in RedirectMap && b in RedirectMap && a != b ==> LandingFor(JStr(a)) != LandingFor(JStr(b))
    ensures a in RedirectMap ==> LandingFor(JStr(a)) != Path("/")
    ensures a !in RedirectMap ==> LandingFor(JStr(a)) == Path("/")
    ensures !other.JStr? && !other.JArr? && !other.JObj? ==> LandingFor(other) == Path("/")
  {
  }

  /**
   * After a successful login, the guard of a one-role route admits the new
   * session exactly when the users row (as the same lookup returns it)
   * carries that role.
   */
  lemma LoginThenGuard(s: Session, data: Object, signIn: AuthReply, lookup: Lookup, role: string, isJson: bool)
    requires IsSuccess(LoginAtomic(s, data, signIn, lookup).0)
    requires signIn.user.value.id != ""
    ensures var s' := LoginAtomic(s, data, signIn, lookup).1;
            RequireAuth(s', lookup, Some([role]), isJson).Proceed? <==>
              RowOf(lookup).Some? && Get(RowOf(lookup).value, "role") == JStr(role)
  {
    LoginAtomicAgrees(s, data, signIn, lookup);
    var s' := LoginAtomic(s, data, signIn, lookup).1;
    SingleRoleGuard(s', lookup, role, isJson);
  }

  /**
   * A user with no row in the users table is logged in as a `'student'` and
   * sent to the student dashboard, yet the student routes turn that session
   * away: the guard finds no row and so no role.
   */
  lemma FallbackStudentIsTurnedAway(s: Session, data: Object, signIn: AuthReply, isJson: bool)
    requires IsSuccess(LoginAtomic(s, data, signIn, LookupData(None)).0)
    ensures LoginAtomic(s, data, signIn, LookupData(None)).1.userRole == Some(JStr("student"))
    ensures LoginAtomic(s, data, signIn, LookupData(None)).0.body["redirect"] == JStr("/student/dashboard")
    ensures RequireAuth(LoginAtomic(s, data, signIn, LookupData(None)).1, LookupData(None), Some(["student"]), isJson).Deny?
  {
    LoginAtomicAgrees(s, data, signIn, LookupData(None));
  }

  /** After logout every guarded route answers as to a caller who never signed in. */
  lemma LogoutSignsOut(s: Session, lookup: Lookup, roles: Option<seq<string>>, isJson: bool)
    ensures RequireAuth(Logout(s).1, lookup, roles, isJson) == Deny(Unauthenticated(isJson))
  {
  }

  /**
   * Registration stores whatever role the caller asks for: a self-registered
   * account with role `'admin'` passes the admin guard as soon as it signs in.
   */
  lemma SelfRegisteredAdmin(users: map<Id, Object>, data: Object, signUp: AuthReply, insert: WriteOutcome, isJson: bool)
    requires signUp.AuthAnswered? && signUp.user.Some? && insert.Written? ==> signUp.user.value.id !in users
    requires IsSuccess(Register(users, data, signUp, insert).0)
    requires Get(data, "role") == JStr("admin")
    requires signUp.user.value.id != ""
    ensures var id := signUp.user.value.id;
            var users' := Register(users, data, signUp, insert).1;
            RequireAuth(Session(Some(id), None, None), LookupData(Some(users'[id])), Some(["admin"]), isJson).Proceed?
  {
    var id := signUp.user.value.id;
    var users' := Register(users, data, signUp, insert).1;
    assert Get(users'[id], "role") == JStr("admin");
    SingleRoleGuard(Session(Some(id), None, None), LookupData(Some(users'[id])), "admin", isJson);
  }

  /** A registration that names no role creates a student. */
  lemma RegisterDefaultsToStudent(users: map<Id, Object>, data: Object, signUp: AuthReply, insert: WriteOutcome)
    requires signUp.AuthAnswered? && signUp.user.Some? && insert.Written? ==> signUp.user.value.id !in users
    requires IsSuccess(Register(users, data, signUp, insert).0)
    requires "role" !in data
    ensures var id := signUp.user.value.id;
            Get(Register(users, data, signUp, insert).1[id], "role") == JStr("student")
  {
  }

  /**
   * The login as written can answer 401 while the session names the new
   * user: whenever the authentication service returns a user but no session
   * object, whatever the session held before and whatever the users row.
   * The token is never written, so the session pairs the new user with the
   * previous session's access token.
   */
  lemma LoginFailureLeavesSessionSignedIn(s: Session, data: Object, user: AuthUser, lookup: Lookup)
    requires HasCredentials(data) && lookup.LookupData?
    ensures var r := Login(s, data, AuthAnswered(Some(user), None), lookup);
            && r.0 == Error(401, NoAccessToken)
            && r.1.userId == Some(user.id)
            && r.1.userRole == Some(LoginRole(RowOf(lookup)))
            && r.1.accessToken == s.accessToken
  {
  }

  /** The same holds when the users row stores a list or an object as the role. */
  lemma UnhashableRoleLeavesSessionSignedIn(s: Session, data: Object, user: AuthUser, token: string, row: Object)
    requires HasCredentials(data)
    requires "role" in row && (row["role"].JArr? || row["role"].JObj?)
    ensures var r := Login(s, data, AuthAnswered(Some(user), Some(AuthSession(token))), LookupData(Some(row)));
            && r.0.Reply? && r.0.status == 401
            && r.1 == Session(Some(user.id), Some(row["role"]), Some(token))
  {
    assert RowOf(LookupData(Some(row))) == Some(row);
  }

  /** The corrected login answers exactly as the written one and differs only in the session it leaves after a failure. */
  lemma LoginAtomicAgrees(s: Session, data: Object, signIn: AuthReply, lookup: Lookup)
    ensures LoginAtomic(s, data, signIn, lookup).0 == Login(s, data, signIn, lookup).0
    ensures IsSuccess(Login(s, data, signIn, lookup).0) ==> LoginAtomic(s, data, signIn, lookup) == Login(s, data, signIn, lookup)
  {
  }
}

=== FILE: counselor.dfy ===
/**
 * The `counselor` blueprint: the caller's cases and their counts, case-wide
 * analytics, and case notes. Every route is guarded by the role
 * `'counselor'`.
 */
module Counselor {
  import opened Maybe
  import opened JsonValue
  import opened Http
  import opened Store
  import opened Access
  import opened Records
  import opened Query

  const CounselorOnly: Option<seq<string>> := Some(["counselor"])

  datatype Dashboard = Dashboard(cases: seq<Case>, notifications: seq<Notification>, totalCases: nat, activeCases: nat)

  /**
   * GET /counselor/dashboard: the cases assigned to the caller, newest
   * first, with their number and the number whose status is `'active'`.
   */
  function DashboardView(caller: Id, cases: seq<Case>, notes: seq<Notification>): (v: Dashboard)
    ensures forall i :: 0 <= i < |v.cases| ==> v.cases[i].counselorId == Some(caller)
    ensures forall i :: 0 <= i < |cases| && cases[i].counselorId == Some(caller) ==> cases[i] in v.cases
    ensures v.totalCases == |v.cases| == Count(cases, CaseOf(caller))
    ensures v.cases == NewestFirst(Where(cases, CaseOf(caller)))
    ensures v.activeCases == Count(v.cases, CaseStatus("active")) <= v.totalCases
    ensures cases == [] ==> v.totalCases == 0 && v.activeCases == 0
    ensures |v.notifications| <= 10
    ensures forall i :: 0 <= i < |v.notifications| ==> v.notifications[i].userId == Some(caller)
    ensures var mine := Where(notes, NotificationFor(caller));
            && |v.notifications| == (if |mine| < 10 then |mine| else 10)
            && forall i :: 0 <= i < |v.notifications| ==> v.notifications[i] == mine[|mine| - 1 - i]
  {
    var shown := Latest(cases, CaseOf(caller));
    var active := Count(shown, CaseStatus("active"));
    Dashboard(shown, Newest(notes, NotificationFor(caller), 10), |shown|, active)
  }

  /** GET /counselor/cases: the cases assigned to the caller, in table order. */
  function AssignedCases(caller: Id, cases: seq<Case>): (r: seq<Case>)
    ensures forall i :: 0 <= i < |r| ==> r[i].counselorId == Some(caller)
    ensures forall i :: 0 <= i < |cases| && cases[i].counselorId == Some(caller) ==> cases[i] in r
  {
    Where(cases, CaseOf(caller))
  }

  /**
   * The case list page and the dashboard show the same cases, each as often
   * as the table holds it; only the order differs.
   */
  lemma AssignedCasesAreDashboardCases(caller: Id, cases: seq<Case>, notes: seq<Notification>)
    ensures multiset(AssignedCases(caller, cases)) == multiset(DashboardView(caller, cases, notes).cases)
    ensures |AssignedCases(caller, cases)| == DashboardView(caller, cases, notes).totalCases
  {
    NewestFirstPermutes(Where(cases, CaseOf(caller)));
  }

  datatype Stats = Stats(total: nat, active: nat, closed: nat, pending: nat)

  /**
   * GET /counselor/analytics, over every case in the table (not only the
   * caller's): exact-status counts that together never exceed the total.
   */
  function Analytics(cases: seq<Case>): (st: Stats)
    ensures st.total == |cases|
    ensures st.active == Count(cases, CaseStatus("active"))
    ensures st.closed == Count(cases, CaseStatus("closed"))
    ensures st.pending == Count(cases, CaseStatus("pending"))
    ensures st.active + st.closed + st.pending <= st.total
  {
    var active := CaseStatus("active");
    var closed := CaseStatus("closed");
    var pending := CaseStatus("pending");
    CountDisjoint(cases, active, closed);
    CountDisjoint(cases, Either(active, closed), pending);
    Stats(|cases|, Count(cases, active), Count(cases, closed), Count(cases, pending))
  }

  /** The row POST /counselor/case/<id>/notes inserts; the note type defaults only when absent. */
  function NewNote(caseId: Id, caller: Id, data: Object): (n: CaseNote)
    ensures n.caseId == caseId && n.counselorId == caller && n.note == Get(data, "note")
    ensures "note_type" !in data ==> n.noteType == JStr("general")
    ensures "note_type" in data ==> n.noteType == data["note_type"]
  {
    CaseNote(caseId, caller, Get(data, "note"), GetOr(data, "note_type", JStr("general")))
  }

  /** POST /counselor/case/<id>/notes over the case-notes table. */
  function AddNote(table: seq<CaseNote>, caseId: Id, caller: Id, data: Object, insert: InsertOutcome)
    : (r: (Response, seq<CaseNote>))
    ensures IsSuccess(r.0) <==> insert.InsertReturned?
    ensures IsSuccess(r.0) ==> r.1 == table + [NewNote(caseId, caller, data)]
    ensures !IsSuccess(r.0) ==> r.1 == table && r.0 == Error(400, insert.message)
    ensures insert.InsertReturned? ==> r.0 == EchoFirst(insert, "note")
  {
    (EchoFirst(insert, "note"), Append(table, NewNote(caseId, caller, data), insert))
  }

  /** The guarded route: only a caller whose stored role is `'counselor'` can add a note. */
  function AddNoteRoute(s: Session, lookup: Lookup, isJson: bool, table: seq<CaseNote>, caseId: Id, data: Object, insert: InsertOutcome)
    : (r: (Response, seq<CaseNote>))
    ensures r.1 != table ==> StoredRoleIs(s, lookup, "counselor") && r.1 == table + [NewNote(caseId, s.userId.value, data)]
    ensures StoredRoleIs(s, lookup, "counselor") ==> r == AddNote(table, caseId, s.userId.value, data, insert)
    ensures !StoredRoleIs(s, lookup, "counselor") ==> r.1 == table && r.0 == RequireAuth(s, lookup, CounselorOnly, isJson).response
  {
    SingleRoleGuard(s, lookup, "counselor", isJson);
    var d := RequireAuth(s, lookup, CounselorOnly, isJson);
    if d.Proceed? then AddNote(table, caseId, s.userId.value, data, insert) else (d.response, table)
  }

  /** Cases of other counselors never change what the caller's dashboard shows. */
  lemma OthersCasesInvisible(caller: Id, cases: seq<Case>, other: Case, notes: seq<Notification>)
    requires other.counselorId != Some(caller)
    ensures DashboardView(caller, cases + [other], notes) == DashboardView(caller, cases, notes)
  {
    WhereAppend(cases, other, CaseOf(caller));
    assert !CaseOf(caller)(other);
    assert Where(cases + [other], CaseOf(caller)) == Where(cases, CaseOf(caller));
  }
}

=== FILE: guest.dfy ===
/** The `guest` blueprint: the profile update and the guidance request. */
module Guest {
  import opened Maybe
  import opened JsonValue
  import opened Http
  import opened Store
  import opened Access
  import opened Records
  import opened Names

  const GuestOnly: Option<seq<string>> := Some(["guest"])

  /**
   * The `update_data` of POST /guest/profile, one optional entry per column
   * it may write; `None` means the column is left out of the update.
   */
  datatype ProfileUpdate = ProfileUpdate(
    firstName: Option<Json>, lastName: Option<Json>, contactNumber: Option<Json>, address: Option<Json>)

  /** The payload value under `key`, if the key is present. */
  function Present(data: Object, key: string): Option<Json> {
    if key in data then Some(data[key]) else None
  }

  /**
   * Builds the update, or `None` when `full_name` is present but not a
   * string, so that `.strip()` raises. Explicit names are applied after the
   * split and so override it.
   */
  function ProfileChanges(data: Object): (r: Option<ProfileUpdate>)
    ensures r.None? <==> "full_name" in data && !data["full_name"].JStr?
    ensures r.Some? ==> (r.value.firstName.Some? <==> "first_name" in data || "full_name" in data)
    ensures r.Some? ==> (r.value.lastName.Some? <==> "last_name" in data || "full_name" in data)
    ensures r.Some? ==> r.value.contactNumber == Present(data, "contact_number")
    ensures r.Some? ==> r.value.address == Present(data, "address")
    ensures r.Some? && "first_name" in data ==> r.value.firstName == Some(data["first_name"])
    ensures r.Some? && "last_name" in data ==> r.value.lastName == Some(data["last_name"])
    ensures r.Some? && "full_name" in data && "first_name" !in data ==>
              r.value.firstName == Some(JStr(SplitFullName(data["full_name"].s).0))
    ensures r.Some? && "full_name" in data && "last_name" !in data ==>
              r.value.lastName == Some(JStr(SplitFullName(data["full_name"].s).1))
  {
    if "full_name" in data && !data["full_name"].JStr? then
      None
    else
      var split: (Option<Json>, Option<Json>) :=
        if "full_name" in data then
          var names := SplitFullName(data["full_name"].s);
          (Some(JStr(names.0)), Some(JStr(names.1)))
        else (None, None);
      var first := if "first_name" in data then Some(data["first_name"]) else split.0;
      var last := if "last_name" in data then Some(data["last_name"]) else split.1;
      Some(ProfileUpdate(first, last, Present(data, "contact_number"), Present(data, "address")))
  }

  /** The update as the column map sent to the store: only the entries present. */
  function Columns(u: ProfileUpdate): (c: Object)
    ensures "first_name" in c <==> u.firstName.Some?
    ensures "last_name" in c <==> u.lastName.Some?
    ensures "contact_number" in c <==> u.contactNumber.Some?
    ensures "address" in c <==> u.address.Some?
    ensures forall k :: k in c ==> k in {"first_name", "last_name", "contact_number", "address"}
  {
    var c0: Object := map[];
    var c1 := if u.firstName.Some? then c0["first_name" := u.firstName.value] else c0;
    var c2 := if u.lastName.Some? then c1["last_name" := u.lastName.value] else c1;
    var c3 := if u.contactNumber.Some? then c2["contact_number" := u.contactNumber.value] else c2;
    if u.address.Some? then c3["address" := u.address.value] else c3
  }

  /**
   * POST /guest/profile over the users table, for the caller's id. A crash
   * in building the update is an uncaught exception; a failing update
   * answers 400 and writes nothing.
   */
  function Profile(users: map<Id, Object>, caller: Id, data: Object, write: WriteOutcome): (r: (Response, map<Id, Object>))
    ensures r.0 == ServerError <==> ProfileChanges(data).None?
    ensures ProfileChanges(data).Some? && write.Written? ==> IsSuccess(r.0)
    ensures ProfileChanges(data).Some? && write.WriteRaised? ==> r.0 == Error(400, write.message)
    ensures !IsSuccess(r.0) ==> r.1 == users
    ensures IsSuccess(r.0) ==> write.Written? && r.1 == UpdateWhereId(users, caller, Columns(ProfileChanges(data).value))
    ensures r.1.Keys == users.Keys
    ensures forall k :: k in users && k != caller ==> r.1[k] == users[k]
  {
    match ProfileChanges(data)
    case None => (ServerError, users)
    case Some(changes) =>
      match write
      case WriteRaised(m) => (Error(400, m), users)
      case Written => (Success(map[]), UpdateWhereId(users, caller, Columns(changes)))
  }

  /** POST /guest/submit-request: the new request is the caller's and pending. */
  function NewRequest(caller: Id, data: Object): (g: GuidanceRequest)
    ensures g.userId == caller && g.status == Pending
    ensures g.requestType == Get(data, "request_type") && g.description == Get(data, "description")
  {
    GuidanceRequest(caller, Get(data, "request_type"), Get(data, "description"), Pending)
  }

  /** POST /guest/submit-request over the guidance-requests table. */
  function SubmitRequest(table: seq<GuidanceRequest>, caller: Id, data: Object, insert: InsertOutcome): (r: (Response, seq<GuidanceRequest>))
    ensures IsSuccess(r.0) <==> insert.InsertReturned?
    ensures IsSuccess(r.0) ==> r.1 == table + [NewRequest(caller, data)] && "request" in r.0.body
    ensures !IsSuccess(r.0) ==> r.1 == table && r.0 == Error(400, insert.message)
    ensures insert.InsertReturned? ==> r.0 == EchoFirst(insert, "request")
  {
    (EchoFirst(insert, "request"), Append(table, NewRequest(caller, data), insert))
  }

  /** The guarded route: only a caller whose stored role is `'guest'` can add a request. */
  function SubmitRequestRoute(s: Session, lookup: Lookup, isJson: bool, table: seq<GuidanceRequest>, data: Object, insert: InsertOutcome)
    : (r: (Response, seq<GuidanceRequest>))
    ensures r.1 != table ==> StoredRoleIs(s, lookup, "guest") && r.1 == table + [NewRequest(s.userId.value, data)]
    ensures StoredRoleIs(s, lookup, "guest") ==> r == SubmitRequest(table, s.userId.value, data, insert)
    ensures !StoredRoleIs(s, lookup, "guest") ==> r.1 == table && r.0 == RequireAuth(s, lookup, GuestOnly, isJson).response
  {
    SingleRoleGuard(s, lookup, "guest", isJson);
    var d := RequireAuth(s, lookup, GuestOnly, isJson);
    if d.Proceed? then SubmitRequest(table, s.userId.value, data, insert) else (d.response, table)
  }

  /**
   * A guest profile update never writes the role column, so no caller's
   * access changes: every row keeps the role it had.
   */
  lemma ProfileKeepsRoles(users: map<Id, Object>, caller: Id, data: Object, write: WriteOutcome)
    ensures var users' := Profile(users, caller, data, write).1;
            forall k :: k in users ==> Get(users'[k], "role") == Get(users[k], "role")
  {
    var changes := ProfileChanges(data);
    if changes.Some? {
      assert "role" !in Columns(changes.value);
    }
  }

  /** A `full_name` alone sets both names from its split and writes nothing else; an explicit first name overrides its half. */
  lemma FullNameThenOverride(full: string, first: Json)
    ensures ProfileChanges(map["full_name" := JStr(full)]) ==
              Some(ProfileUpdate(Some(JStr(SplitFullName(full).0)), Some(JStr(SplitFullName(full).1)), None, None))
    ensures ProfileChanges(map["full_name" := JStr(full), "first_name" := first]) ==
              Some(ProfileUpdate(Some(first), Some(JStr(SplitFullName(full).1)), None, None))
  {
    assert "last_name"[0] != "full_name"[0];
    assert "contact_number"[0] != "full_name"[0] && "address"[0] != "full_name"[0];
    var d1: Object := map["full_name" := JStr(full)];
    assert "first_name" !in d1 && "last_name" !in d1 && "contact_number" !in d1 && "address" !in d1;
    var r1 := ProfileChanges(d1).value;
    assert r1.firstName == Some(JStr(SplitFullName(full).0));
    assert r1.lastName == Some(JStr(SplitFullName(full).1));
    var d2: Object := map["full_name" := JStr(full), "first_name" := first];
    assert "last_name" !in d2 && "contact_number" !in d2 && "address" !in d2;
    var r2 := ProfileChanges(d2).value;
    assert r2.firstName == Some(first);
    assert r2.lastName == Some(JStr(SplitFullName(full).1));
  }

  /** An empty payload writes no column at all. */
  lemma EmptyPayloadWritesNothing()
    ensures ProfileChanges(map[]) == Some(ProfileUpdate(None, None, None, None))
    ensures Columns(ProfileUpdate(None, None, None, None)) == map[]
  {
  }
}

=== FILE: http.dfy ===
/** What a handler sends back to the browser. Templates are opaque. */
module Http {
  import opened JsonValue

  /** Named endpoints a redirect can point at. */
  datatype Target = LoginPage | HomePage

  datatype Response =
    | Reply(status: int, body: Object)   // a JSON response
    | RedirectTo(target: Target)          // an HTTP redirect
    | ServerError                         // an uncaught exception: HTTP 500

  /** `jsonify({'error': message}), status` */
  function Error(status: int, message: string): Response {
    Reply(status, map["error" := JStr(message)])
  }

  /** `jsonify({'success': True, ...fields})` with status 200 */
  function Success(fields: Object): Response {
    Reply(200, map["success" := JBool(true)] + fields)
  }

  predicate IsSuccess(r: Response) {
    r.Reply? && r.status == 200
  }

  /** A page handler: the values it renders its template with, or an uncaught exception. */
  datatype Page<T> = Rendered(view: T) | Crashed
}

=== FILE: json_value.dfy ===
/**
 * JSON values as the handlers receive them from `request.get_json()` and from
 * the data store. Numbers are integers only; rows and payloads are objects.
 */
module JsonValue {

  datatype Json =
    | JNull
    | JBool(b: bool)
    | JNum(n: int)
    | JStr(s: string)
    | JArr(items: seq<Json>)
    | JObj(fields: map<string, Json>)

  /** A JSON object: a request payload or a row of a table. */
  type Object = map<string, Json>

  /** Python truthiness of a decoded JSON value (`if not x`). */
  predicate Truthy(j: Json) {
    match j
    case JNull => false
    case JBool(b) => b
    case JNum(n) => n != 0
    case JStr(s) => |s| > 0
    case JArr(items) => |items| > 0
    case JObj(fields) => |fields| > 0
  }

  /** `o.get(k)`: the value under `k`, or null when the key is absent. */
  function Get(o: Object, k: string): Json {
    if k in o then o[k] else JNull
  }

  /**
   * `o.get(k, d)`: the default is used only when the key is ABSENT; a key
   * present with value null yields null.
   */
  function GetOr(o: Object, k: string, d: Json): Json {
    if k in o then o[k] else d
  }
}

=== FILE: maybe.dfy ===
/** The optional value used wherever the source has `None` or a missing key. */
module Maybe {

  datatype Option<+T> = None | Some(value: T) {

    /** The wrapped value, or `default` when there is none. */
    function GetOr(default: T): T {
      match this
      case Some(v) => v
      case None => default
    }
  }
}

=== FILE: names.dfy ===
/**
 * Python's whitespace handling as the guest profile update uses it:
 * `full_name.strip()` and `full_name.split(maxsplit=1)`.
 */
module Names {

  /** Python's `str.isspace` for one character. */
  predicate IsSpace(c: char) {
    || c == ' '
    || ('\t' <= c <= '\r')                      // \t \n \v \f \r
    || ('\U{1C}' <= c <= '\U{1F}')              // file, group, record, unit separators
    || c == '\U{85}' || c == '\U{A0}' || c == '\U{1680}'
    || ('\U{2000}' <= c <= '\U{200A}')
    || c == '\U{2028}' || c == '\U{2029}' || c == '\U{202F}' || c == '\U{205F}' || c == '\U{3000}'
  }

  predicate NoSpace(s: string) {
    forall i :: 0 <= i < |s| ==> !IsSpace(s[i])
  }

  predicate AllSpace(s: string) {
    forall i :: 0 <= i < |s| ==> IsSpace(s[i])
  }

  /** Neither end is whitespace: what `strip()` leaves. */
  predicate Trimmed(s: string) {
    s == [] || (!IsSpace(s[0]) && !IsSpace(s[|s| - 1]))
  }

  /** Where the run of whitespace that starts at index `i` of `s` ends. */
  function SpaceRun(s: string, i: nat): (r: nat)
    requires i <= |s|
    ensures i <= r <= |s|
    ensures forall k :: i <= k < r ==> IsSpace(s[k])
    ensures r < |s| ==> !IsSpace(s[r])
    decreases |s| - i
  {
    if i < |s| && IsSpace(s[i]) then SpaceRun(s, i + 1) else i
  }

  /** Where the run of non-whitespace that starts at index `i` of `s` ends. */
  function WordEnd(s: string, i: nat): (r: nat)
    requires i <= |s|
    ensures i <= r <= |s|
    ensures forall k :: i <= k < r ==> !IsSpace(s[k])
    ensures r < |s| ==> IsSpace(s[r])
    decreases |s| - i
  {
    if i < |s| && !IsSpace(s[i]) then WordEnd(s, i + 1) else i
  }

  /** Where the run of whitespace that ends just before index `j` of `s` starts, going no lower than `lo`. */
  function SpaceBack(s: string, lo: nat, j: nat): (r: nat)
    requires lo <= j <= |s|
    ensures lo <= r <= j
    ensures forall k :: r <= k < j ==> IsSpace(s[k])
    ensures lo < r ==> !IsSpace(s[r - 1])
    decreases j
  {
    if lo < j && IsSpace(s[j - 1]) then SpaceBack(s, lo, j - 1) else j
  }

  /**
   * `s.strip()`: what lies between the leading and the trailing whitespace.
   * Nothing is left exactly when `s` is all whitespace.
   */
  function Strip(s: string): (t: string)
    ensures Trimmed(t)
    ensures t == [] <==> AllSpace(s)
  {
    var a := SpaceRun(s, 0);
    s[a..SpaceBack(s, a, |s|)]
  }

  /** Any split of `s` into whitespace, a trimmed middle and whitespace strips to that middle. */
  lemma StripBetween(s: string, a: nat, b: nat)
    requires a <= b <= |s|
    requires forall k :: 0 <= k < a ==> IsSpace(s[k])
    requires forall k :: b <= k < |s| ==> IsSpace(s[k])
    requires a < b ==> !IsSpace(s[a]) && !IsSpace(s[b - 1])
    ensures Strip(s) == s[a..b]
  {
    var a' := SpaceRun(s, 0);
    if a < b {
      assert a' == a;
      assert SpaceBack(s, a, |s|) == b;
    } else {
      assert a' == |s|;
    }
  }

  /**
   * `s.split(maxsplit=1)`: no parts for an all-whitespace string, otherwise
   * the first word and, when anything but whitespace follows it, the rest
   * after the whitespace run that ends the word, trailing whitespace kept.
   */
  function SplitOnce(s: string): (parts: seq<string>)
    ensures |parts| <= 2
    ensures parts == [] <==> AllSpace(s)
    ensures |parts| > 0 ==> parts[0] != [] && NoSpace(parts[0])
    ensures |parts| == 2 ==> parts[1] != [] && !IsSpace(parts[1][0])
  {
    var a := SpaceRun(s, 0);
    if a == |s| then
      []
    else
      var e := WordEnd(s, a);
      var b := SpaceRun(s, e);
      if b == |s| then [s[a..e]] else [s[a..e], s[b..]]
  }

  /**
   * The profile handler's name split: `full_name.strip().split(maxsplit=1)`,
   * then the first part or '' and the second part or ''.
   */
  function SplitFullName(full: string): (r: (string, string))
    ensures r.0 == [] <==> AllSpace(full)
    ensures NoSpace(r.0) && (r.0 == [] ==> r.1 == [])
    ensures r.1 == [] || !IsSpace(r.1[0])
  {
    var parts := SplitOnce(Strip(full));
    (if |parts| > 0 then parts[0] else "", if |parts| > 1 then parts[1] else "")
  }

  /** The split of a stripped, non-empty name, stated against that name. */
  lemma SplitOnceOfTrimmed(t: string)
    requires t != [] && Trimmed(t)
    ensures var parts := SplitOnce(t);
            && |parts| > 0
            && (|parts| == 1 ==> parts[0] == t)
            && (|parts| == 2 ==>
                  && Trimmed(parts[1])
                  && |parts[0]| + |parts[1]| < |t|
                  && t[..|parts[0]|] == parts[0]
                  && t[|t| - |parts[1]|..] == parts[1]
                  && AllSpace(t[|parts[0]|..|t| - |parts[1]|]))
  {
    assert SpaceRun(t, 0) == 0;
    var e := WordEnd(t, 0);
    var b := SpaceRun(t, e);
    if e < |t| {
      assert b < |t|;
      assert SplitOnce(t) == [t[..e], t[b..]];
    } else {
      assert SplitOnce(t) == [t[0..e]];
    }
  }

  /**
   * The shape of the split: the first name is one word, empty exactly when
   * the full name is all whitespace, and then the last name is empty too;
   * the last name has no whitespace at its ends.
   */
  lemma SplitFullNameShape(full: string)
    ensures var first := SplitFullName(full).0;
            var last := SplitFullName(full).1;
            && (first == [] <==> AllSpace(full))
            && (first == [] ==> last == [])
            && NoSpace(first)
            && Trimmed(last)
  {
    var t := Strip(full);
    var parts := SplitOnce(t);
    assert SplitFullName(full) == (if |parts| > 0 then parts[0] else "", if |parts| > 1 then parts[1] else "");
    if t != [] {
      SplitOnceOfTrimmed(t);
    }
  }

  /**
   * Where the names lie in the stripped full name: with no last name the
   * first name is all of it; otherwise the first name is its first word and
   * the last name is what follows the whitespace after that word, up to the
   * end.
   */
  lemma SplitFullNameParts(full: string)
    ensures var first := SplitFullName(full).0;
            var last := SplitFullName(full).1;
            var t := Strip(full);
            && (last == [] ==> first == t)
            && (last != [] ==>
                  && |first| + |last| < |t|
                  && t[..|first|] == first
                  && t[|t| - |last|..] == last
                  && AllSpace(t[|first|..|t| - |last|]))
  {
    var t := Strip(full);
    var parts := SplitOnce(t);
    assert SplitFullName(full) == (if |parts| > 0 then parts[0] else "", if |parts| > 1 then parts[1] else "");
    if t != [] {
      SplitOnceOfTrimmed(t);
    }
  }

  /** The word run ending where non-whitespace gives out is the one `WordEnd` finds. */
  lemma WordEndIs(s: string, i: nat, r: nat)
    requires i <= r <= |s|
    requires forall k :: i <= k < r ==> !IsSpace(s[k])
    requires r < |s| ==> IsSpace(s[r])
    ensures WordEnd(s, i) == r
  {
  }

  /** The whitespace run ending where whitespace gives out is the one `SpaceRun` finds. */
  lemma SpaceRunIs(s: string, i: nat, r: nat)
    requires i <= r <= |s|
    requires forall k :: i <= k < r ==> IsSpace(s[k])
    requires r < |s| ==> !IsSpace(s[r])
    ensures SpaceRun(s, i) == r
  {
  }

  /**
   * Joining a first name and a last name with one space and splitting again
   * gives both back, provided the first name is one word and the last name
   * has no whitespace at its ends.
   */
  lemma JoinThenSplit(first: string, last: string)
    requires first != [] && NoSpace(first)
    requires Trimmed(last)
    ensures SplitFullName(first + " " + last) == (first, last)
  {
    var full := first + " " + last;
    var n := |first|;
    assert full[n] == ' ';
    forall k | 0 <= k < n
      ensures full[k] == first[k] && !IsSpace(full[k])
    {
    }
    if last == [] {
      assert full[0..n] == first;
      StripBetween(full, 0, n);
      WordSplitsToItself(first);
    } else {
      JoinThenSplitTwoWords(first, last);
    }
  }

  /** `JoinThenSplit` when there is a last name: nothing is stripped and the split falls on the space. */
  lemma JoinThenSplitTwoWords(first: string, last: string)
    requires first != [] && NoSpace(first)
    requires last != [] && Trimmed(last)
    ensures SplitFullName(first + " " + last) == (first, last)
  {
    var full := first + " " + last;
    var n := |first|;
    assert full[n] == ' ' && full[n + 1] == last[0] && full[|full| - 1] == last[|last| - 1];
    forall k | 0 <= k < n
      ensures full[k] == first[k] && !IsSpace(full[k])
    {
    }
    StripBetween(full, 0, |full|);
    assert full[0..|full|] == full;
    SpaceRunIs(full, 0, 0);
    WordEndIs(full, 0, n);
    SpaceRunIs(full, n, n + 1);
    assert full[0..n] == first && full[n + 1..] == last;
    assert SplitOnce(full) == [first, last];
  }

  /** An empty or all-whitespace full name blanks both names. */
  lemma BlankName(full: string)
    requires AllSpace(full)
    ensures SplitFullName(full) == ("", "")
  {
    assert Strip(full) == [];
  }

  /** A single word splits into itself. */
  lemma WordSplitsToItself(word: string)
    requires word != [] && NoSpace(word)
    ensures SplitOnce(word) == [word]
  {
    assert word[0..|word|] == word;
    SpaceRunIs(word, 0, 0);
    WordEndIs(word, 0, |word|);
    SpaceRunIs(word, |word|, |word|);
  }

  /** A single word is the first name and blanks the last name. */
  lemma SingleWordName(word: string)
    requires word != [] && NoSpace(word)
    ensures SplitFullName(word) == (word, "")
  {
    StripBetween(word, 0, |word|);
    assert word[0..|word|] == word;
    WordSplitsToItself(word);
  }
}

=== FILE: query.dfy ===
/**
 * The part of the data store's query builder the handlers use, over a table
 * held as a sequence in insertion order: `.eq(...)` filters, `.order(
 * 'created_at', desc=True)` lists the newest row first, `.limit(n)` keeps a
 * prefix, and `len([...])` counts the rows a predicate accepts.
 */
module Query {

  /** The rows `keep` accepts, in table order (see `WhereMultiplicity`). */
  function Where<T>(rows: seq<T>, keep: T -> bool): (r: seq<T>)
    ensures |r| <= |rows|
    ensures forall i :: 0 <= i < |r| ==> r[i] in rows && keep(r[i])
    ensures forall i :: 0 <= i < |rows| && keep(rows[i]) ==> rows[i] in r
    decreases |rows|
  {
    if rows == [] then []
    else
      var n := |rows| - 1;
      assert rows == rows[..n] + [rows[n]];
      Where(rows[..n], keep) + (if keep(rows[n]) then [rows[n]] else [])
  }

  /** How many rows `keep` accepts. */
  function Count<T>(rows: seq<T>, keep: T -> bool): (n: nat)
    ensures n <= |rows|
  {
    |Where(rows, keep)|
  }

  /** The rows in the opposite order: the newest insertion comes first. */
  function NewestFirst<T>(rows: seq<T>): (r: seq<T>)
    ensures |r| == |rows|
    ensures forall i :: 0 <= i < |rows| ==> r[i] == rows[|rows| - 1 - i]
  {
    if rows == [] then [] else [rows[|rows| - 1]] + NewestFirst(rows[..|rows| - 1])
  }

  /** The rows `keep` accepts, newest first: `.eq(...).order('created_at', desc=True)`. */
  function Latest<T>(rows: seq<T>, keep: T -> bool): (r: seq<T>)
    ensures |r| == Count(rows, keep) <= |rows|
    ensures forall i :: 0 <= i < |r| ==> r[i] == Where(rows, keep)[|r| - 1 - i]
    ensures forall i :: 0 <= i < |r| ==> r[i] in rows && keep(r[i])
    ensures forall i :: 0 <= i < |rows| && keep(rows[i]) ==> rows[i] in r
  {
    var w := Where(rows, keep);
    NewestFirstSameRows(w);
    NewestFirst(w)
  }

  /**
   * The `n` newest rows `keep` accepts, newest first:
   * `.eq(...).order('created_at', desc=True).limit(n)`.
   */
  function Newest<T>(rows: seq<T>, keep: T -> bool, n: nat): (r: seq<T>)
    ensures var w := Where(rows, keep);
            && |r| == (if |w| < n then |w| else n)
            && forall i :: 0 <= i < |r| ==> r[i] == w[|w| - 1 - i]
    ensures forall i :: 0 <= i < |r| ==> keep(r[i])
  {
    var l := Latest(rows, keep);
    assert |l| == |Where(rows, keep)|;
    Limit(l, n)
  }

  /** At most `n` rows, taken from the front. */
  function Limit<T>(rows: seq<T>, n: nat): (r: seq<T>)
    ensures |r| <= n && |r| <= |rows|
    ensures r == rows[..|r|]
    ensures |rows| <= n ==> r == rows
    ensures n <= |rows| ==> |r| == n
  {
    if |rows| <= n then rows else rows[..n]
  }

  /** A predicate accepting what either of two predicates accepts. */
  function Either<T>(p: T -> bool, q: T -> bool): T -> bool {
    x => p(x) || q(x)
  }

  /** Appending a row adds it to the filtered rows exactly when it is accepted. */
  lemma WhereAppend<T>(rows: seq<T>, x: T, keep: T -> bool)
    ensures Where(rows + [x], keep) == Where(rows, keep) + (if keep(x) then [x] else [])
  {
    assert (rows + [x])[..|rows|] == rows;
  }

  /**
   * Filtering keeps every accepted row as often as the table holds it and
   * drops every other row.
   */
  lemma {:induction false} WhereMultiplicity<T>(rows: seq<T>, keep: T -> bool, x: T)
    ensures multiset(Where(rows, keep))[x] == if keep(x) then multiset(rows)[x] else 0
    decreases |rows|
  {
    if rows != [] {
      var n := |rows| - 1;
      WhereMultiplicity(rows[..n], keep, x);
      assert rows == rows[..n] + [rows[n]];
    }
  }

  /** Newest-first order is a permutation of the rows. */
  lemma {:induction false} NewestFirstPermutes<T>(rows: seq<T>)
    ensures multiset(NewestFirst(rows)) == multiset(rows)
    decreases |rows|
  {
    if rows != [] {
      var n := |rows| - 1;
      NewestFirstPermutes(rows[..n]);
      assert rows == rows[..n] + [rows[n]];
    }
  }

  /** Newest-first order keeps exactly the same rows. */
  lemma NewestFirstSameRows<T>(rows: seq<T>)
    ensures forall i :: 0 <= i < |rows| ==> rows[i] in NewestFirst(rows)
    ensures forall i :: 0 <= i < |rows| ==> NewestFirst(rows)[i] in rows
  {
    var r := NewestFirst(rows);
    forall i | 0 <= i < |rows| ensures rows[i] in r {
      assert r[|rows| - 1 - i] == rows[i];
    }
  }

  /**
   * Counting two predicates that never accept the same row is counting their
   * union; in particular the two counts together never exceed the rows.
   */
  lemma {:induction false} CountDisjoint<T>(rows: seq<T>, p: T -> bool, q: T -> bool)
    requires forall i :: 0 <= i < |rows| ==> !(p(rows[i]) && q(rows[i]))
    ensures Count(rows, p) + Count(rows, q) == Count(rows, Either(p, q))
    ensures Count(rows, p) + Count(rows, q) <= |rows|
    decreases |rows|
  {
    if rows != [] {
      var n := |rows| - 1;
      CountDisjoint(rows[..n], p, q);
    }
  }
}

=== FILE: records.dfy ===
/**
 * Rows of the tables the handlers insert into or count. A field of `Option`
 * type is a column the insert may leave out, in which case the table's own
 * default applies; `None` means "not written by this insert".
 */
module Records {
  import opened Maybe
  import opened JsonValue
  import opened Store

  datatype Report = Report(
    userId: Option<Id>,
    title: Json,
    description: Json,
    category: Json,
    studentId: Option<Json>,
    status: Json,
    reportedBy: Json,
    isAnonymous: Option<bool>)

  datatype CounselingRequest = CounselingRequest(
    userId: Id, reason: Json, preferredDate: Json, urgency: Json, status: Json)

  datatype GuidanceRequest = GuidanceRequest(
    userId: Id, requestType: Json, description: Json, status: Json)

  datatype CaseNote = CaseNote(caseId: Id, counselorId: Id, note: Json, noteType: Json)

  /** A row of `cases`; cases are created outside the modelled handlers. */
  datatype Case = Case(counselorId: Option<Id>, status: Json)

  datatype Notification = Notification(userId: Option<Id>)

  /** The status every new report and request starts in. */
  const Pending: Json := JStr("pending")

  /** `r.get('status') == status` over reports. */
  function ReportStatus(status: string): Report -> bool {
    (r: Report) => r.status == JStr(status)
  }

  /** `c.get('status') == status` over cases. */
  function CaseStatus(status: string): Case -> bool {
    (c: Case) => c.status == JStr(status)
  }

  /** `.eq('user_id', id)` over reports. */
  function ReportOf(id: Id): Report -> bool {
    (r: Report) => r.userId == Some(id)
  }

  /** `.eq('user_id', id)` over counselling requests. */
  function RequestOf(id: Id): CounselingRequest -> bool {
    (r: CounselingRequest) => r.userId == id
  }

  /** `.eq('user_id', id)` over notifications. */
  function NotificationFor(id: Id): Notification -> bool {
    (n: Notification) => n.userId == Some(id)
  }

  /** `.eq('counselor_id', id)` over cases. */
  function CaseOf(id: Id): Case -> bool {
    (c: Case) => c.counselorId == Some(id)
  }
}

=== FILE: store.dfy ===
/**
 * The data store as the handlers see it: the outcome of a call is either the
 * data it returned or the exception it raised. Which outcome occurs is a
 * parameter of every operation that talks to the store.
 */
module Store {
  import opened Maybe
  import opened JsonValue
  import opened Http

  /** A row id (a UUID string in the deployed schema). */
  type Id = string

  /** A list query: the table it read, or the exception it raised. */
  datatype Fetch<T> = FetchRaised | Fetched(table: seq<T>)

  /**
   * `try: rows = q.data if q.data else [] except: rows = []`: a failed query
   * reads as an empty table.
   */
  function TableOrEmpty<T>(f: Fetch<T>): (rows: seq<T>)
    ensures f.FetchRaised? ==> rows == []
    ensures f.Fetched? ==> rows == f.table
  {
    match f
    case FetchRaised => []
    case Fetched(t) => t
  }

  /** A `.single().execute()` lookup: the row data, or the exception raised. */
  datatype Lookup = LookupRaised(message: string) | LookupData(data: Option<Object>)

  /** `q.data if q.data else None`, with a raised lookup read as no row. */
  function RowOf(l: Lookup): (row: Option<Object>)
    ensures row.Some? ==> l == LookupData(row) && row.value != map[]
    ensures l.LookupData? && l.data.Some? && l.data.value != map[] ==> row == l.data
  {
    if l.LookupData? && l.data.Some? && l.data.value != map[] then l.data else None
  }

  /** An `.insert(...).execute()`: the rows echoed back, or the exception raised. */
  datatype InsertOutcome = InsertRaised(message: string) | InsertReturned(rows: seq<Object>)

  /** An `.update(...).execute()` or `.upsert(...).execute()`. */
  datatype WriteOutcome = WriteRaised(message: string) | Written

  /** The table after an insert: a raised insert leaves it as it was. */
  function Append<T>(table: seq<T>, rec: T, outcome: InsertOutcome): (t: seq<T>)
    ensures outcome.InsertRaised? ==> t == table
    ensures outcome.InsertReturned? ==> |t| == |table| + 1 && t[..|table|] == table && t[|table|] == rec
  {
    if outcome.InsertRaised? then table else table + [rec]
  }

  /**
   * The reply of the submit handlers: `{'success': True, key: data[0] if
   * data else None}`, or 400 with the exception text.
   */
  function EchoFirst(outcome: InsertOutcome, key: string): (r: Response)
    ensures outcome.InsertRaised? ==> r == Error(400, outcome.message)
    ensures outcome.InsertReturned? ==> IsSuccess(r) && key in r.body
    ensures outcome.InsertReturned? && outcome.rows == [] ==> r.body[key] == JNull
    ensures outcome.InsertReturned? && outcome.rows != [] ==> r.body[key] == JObj(outcome.rows[0])
    ensures outcome.InsertReturned? ==> r.body.Keys == {"success", key}
    ensures outcome.InsertReturned? && key != "success" ==> r.body["success"] == JBool(true)
  {
    match outcome
    case InsertRaised(m) => Error(400, m)
    case InsertReturned(rows) =>
      Success(map[key := if |rows| > 0 then JObj(rows[0]) else JNull])
  }

  /**
   * `.update(changes).eq('id', id)` on a table keyed by id: the row with that
   * id takes the new column values; no other row and no other column changes,
   * and an unknown id matches nothing.
   */
  function UpdateWhereId(rows: map<Id, Object>, id: Id, changes: Object): (u: map<Id, Object>)
    ensures u.Keys == rows.Keys
    ensures forall k :: k in rows && k != id ==> u[k] == rows[k]
    ensures id in rows ==> u[id].Keys == rows[id].Keys + changes.Keys
    ensures id in rows ==> forall c :: c in changes ==> u[id][c] == changes[c]
    ensures id in rows ==> forall c :: c in rows[id] && c !in changes ==> u[id][c] == rows[id][c]
  {
    if id in rows then rows[id := rows[id] + changes] else rows
  }
}

=== FILE: student.dfy ===
/**
 * The `student` blueprint: reports, counselling requests, the dashboard
 * lists and the profile update. Every route is guarded by the role
 * `'student'`.
 */
module Student {
  import opened Maybe
  import opened JsonValue
  import opened Http
  import opened Store
  import opened Access
  import opened Records
  import opened Query

  const StudentOnly: Option<seq<string>> := Some(["student"])

  /** The row POST /student/submit-report inserts. */
  function NewReport(caller: Id, data: Object): (r: Report)
    ensures r.userId == Some(caller) && r.status == Pending && r.reportedBy == JStr("student")
    ensures r.title == Get(data, "title") && r.description == Get(data, "description") && r.category == Get(data, "category")
    ensures r.studentId.None? && r.isAnonymous.None?
  {
    Report(Some(caller), Get(data, "title"), Get(data, "description"), Get(data, "category"), None, Pending, JStr("student"), None)
  }

  /** POST /student/submit-report: the report is stored unless the insert raises. */
  function SubmitReport(table: seq<Report>, caller: Id, data: Object, insert: InsertOutcome): (r: (Response, seq<Report>))
    ensures IsSuccess(r.0) <==> insert.InsertReturned?
    ensures IsSuccess(r.0) ==> r.1 == table + [NewReport(caller, data)]
    ensures !IsSuccess(r.0) ==> r.1 == table && r.0 == Error(400, insert.message)
    ensures insert.InsertReturned? ==> r.0 == EchoFirst(insert, "report")
  {
    (EchoFirst(insert, "report"), Append(table, NewReport(caller, data), insert))
  }

  /** The guarded route: only a caller whose stored role is `'student'` can add a report. */
  function SubmitReportRoute(s: Session, lookup: Lookup, isJson: bool, table: seq<Report>, data: Object, insert: InsertOutcome)
    : (r: (Response, seq<Report>))
    ensures r.1 != table ==> StoredRoleIs(s, lookup, "student") && r.1 == table + [NewReport(s.userId.value, data)]
    ensures StoredRoleIs(s, lookup, "student") ==> r == SubmitReport(table, s.userId.value, data, insert)
    ensures !StoredRoleIs(s, lookup, "student") ==> r.1 == table && r.0 == RequireAuth(s, lookup, StudentOnly, isJson).response
  {
    SingleRoleGuard(s, lookup, "student", isJson);
    var d := RequireAuth(s, lookup, StudentOnly, isJson);
    if d.Proceed? then SubmitReport(table, s.userId.value, data, insert) else (d.response, table)
  }

  /** The row POST /student/request-counseling inserts; urgency defaults only when absent. */
  function NewCounselingRequest(caller: Id, data: Object): (r: CounselingRequest)
    ensures r.userId == caller && r.status == Pending
    ensures r.reason == Get(data, "reason") && r.preferredDate == Get(data, "preferred_date")
    ensures "urgency" !in data ==> r.urgency == JStr("normal")
    ensures "urgency" in data ==> r.urgency == data["urgency"]
  {
    CounselingRequest(caller, Get(data, "reason"), Get(data, "preferred_date"), GetOr(data, "urgency", JStr("normal")), Pending)
  }

  /**
   * POST /student/request-counseling. No report or case is consulted: the
   * request is created whenever the insert succeeds.
   */
  function RequestCounseling(table: seq<CounselingRequest>, caller: Id, data: Object, insert: InsertOutcome)
    : (r: (Response, seq<CounselingRequest>))
    ensures IsSuccess(r.0) <==> insert.InsertReturned?
    ensures IsSuccess(r.0) ==> r.1 == table + [NewCounselingRequest(caller, data)] && "request" in r.0.body
    ensures !IsSuccess(r.0) ==> r.1 == table && r.0 == Error(400, insert.message)
    ensures insert.InsertReturned? ==> r.0 == EchoFirst(insert, "request")
  {
    (EchoFirst(insert, "request"), Append(table, NewCounselingRequest(caller, data), insert))
  }

  /** The lists the dashboard renders. */
  datatype Dashboard = Dashboard(reports: seq<Report>, counseling: seq<CounselingRequest>, notifications: seq<Notification>)

  /**
   * GET /student/dashboard: the caller's own reports, requests and (at most
   * ten) notifications, newest first; a failed query shows an empty list.
   */
  function DashboardView(caller: Id, reports: Fetch<Report>, requests: Fetch<CounselingRequest>, notes: Fetch<Notification>)
    : (v: Dashboard)
    ensures forall i :: 0 <= i < |v.reports| ==> v.reports[i].userId == Some(caller)
    ensures forall i :: 0 <= i < |v.counseling| ==> v.counseling[i].userId == caller
    ensures forall i :: 0 <= i < |v.notifications| ==> v.notifications[i].userId == Some(caller)
    ensures |v.notifications| <= 10
    ensures reports.FetchRaised? ==> v.reports == []
    ensures reports.Fetched? ==>
              forall i :: 0 <= i < |reports.table| && reports.table[i].userId == Some(caller) ==> reports.table[i] in v.reports
    ensures var m := Where(TableOrEmpty(reports), ReportOf(caller));
            |v.reports| == |m| && forall i :: 0 <= i < |v.reports| ==> v.reports[i] == m[|m| - 1 - i]
    ensures var m := Where(TableOrEmpty(requests), RequestOf(caller));
            |v.counseling| == |m| && forall i :: 0 <= i < |v.counseling| ==> v.counseling[i] == m[|m| - 1 - i]
    ensures requests.FetchRaised? ==> v.counseling == []
    ensures requests.Fetched? ==>
              forall i :: 0 <= i < |requests.table| && requests.table[i].userId == caller ==> requests.table[i] in v.counseling
    ensures notes.FetchRaised? ==> v.notifications == []
    ensures var mine := Where(TableOrEmpty(notes), NotificationFor(caller));
            && |v.notifications| == (if |mine| < 10 then |mine| else 10)
            && forall i :: 0 <= i < |v.notifications| ==> v.notifications[i] == mine[|mine| - 1 - i]
  {
    Dashboard(Latest(TableOrEmpty(reports), ReportOf(caller)),
              Latest(TableOrEmpty(requests), RequestOf(caller)),
              Newest(TableOrEmpty(notes), NotificationFor(caller), 10))
  }

  /** After a successful submission the new report heads its author's dashboard. */
  lemma SubmitThenDashboard(table: seq<Report>, caller: Id, data: Object, insert: InsertOutcome,
                            requests: Fetch<CounselingRequest>, notes: Fetch<Notification>)
    requires IsSuccess(SubmitReport(table, caller, data, insert).0)
    ensures var table' := SubmitReport(table, caller, data, insert).1;
            var v := DashboardView(caller, Fetched(table'), requests, notes);
            |v.reports| == |Where(table, ReportOf(caller))| + 1 && v.reports[0] == NewReport(caller, data)
  {
    var rec := NewReport(caller, data);
    WhereAppend(table, rec, ReportOf(caller));
  }

  /** After a successful request the new request heads its author's counselling list. */
  lemma RequestThenDashboard(table: seq<CounselingRequest>, caller: Id, data: Object, insert: InsertOutcome,
                             reports: Fetch<Report>, notes: Fetch<Notification>)
    requires IsSuccess(RequestCounseling(table, caller, data, insert).0)
    ensures var table' := RequestCounseling(table, caller, data, insert).1;
            var v := DashboardView(caller, reports, Fetched(table'), notes);
            |v.counseling| == |Where(table, RequestOf(caller))| + 1 && v.counseling[0] == NewCounselingRequest(caller, data)
  {
    WhereAppend(table, NewCounselingRequest(caller, data), RequestOf(caller));
  }

  /** The columns POST /student/profile writes: all four, null for an absent key. */
  function ProfileColumns(data: Object): (c: Object)
    ensures c.Keys == {"first_name", "last_name", "contact_number", "year_level"}
    ensures forall k :: k in c ==> c[k] == Get(data, k)
  {
    map["first_name" := Get(data, "first_name"), "last_name" := Get(data, "last_name"),
        "contact_number" := Get(data, "contact_number"), "year_level" := Get(data, "year_level")]
  }

  /** POST /student/profile: only the caller's row changes, in those four columns. */
  function Profile(users: map<Id, Object>, caller: Id, data: Object): (u: map<Id, Object>)
    ensures u.Keys == users.Keys
    ensures forall k :: k in users && k != caller ==> u[k] == users[k]
    ensures caller in users ==> caller in u && forall c :: c in users[caller] && c !in ProfileColumns(data) ==> c in u[caller] && u[caller][c] == users[caller][c]
    ensures caller in users ==> caller in u && Get(u[caller], "role") == Get(users[caller], "role")
    ensures caller in users ==> caller in u && forall c :: c in ProfileColumns(data) ==> c in u[caller] && u[caller][c] == Get(data, c)
  {
    var c := ProfileColumns(data);
    assert "role" !in c;
    UpdateWhereId(users, caller, c)
  }
}

=== FILE: teacher.dfy ===
/**
 * The `teacher` blueprint: incident submission, and the dashboard, which
 * as written reaches the store through `request.app`, an attribute Flask's
 * request object does not have. Every route is guarded by the role
 * `'teacher'`.
 */
module Teacher {
  import opened Maybe
  import opened JsonValue
  import opened Http
  import opened Store
  import opened Access
  import opened Records
  import opened Query

  const TeacherOnly: Option<seq<string>> := Some(["teacher"])

  /** The row POST /teacher/submit-incident inserts: the teacher's, about the named student. */
  function NewIncident(caller: Id, data: Object): (r: Report)
    ensures r.userId == Some(caller) && r.status == Pending && r.reportedBy == JStr("teacher")
    ensures r.studentId == Some(Get(data, "student_id"))
    ensures r.title == Get(data, "title") && r.description == Get(data, "description") && r.category == Get(data, "category")
    ensures r.isAnonymous.None?
  {
    Report(Some(caller), Get(data, "title"), Get(data, "description"), Get(data, "category"),
           Some(Get(data, "student_id")), Pending, JStr("teacher"), None)
  }

  /** POST /teacher/submit-incident: the incident is stored unless the insert raises. */
  function SubmitIncident(table: seq<Report>, caller: Id, data: Object, insert: InsertOutcome): (r: (Response, seq<Report>))
    ensures IsSuccess(r.0) <==> insert.InsertReturned?
    ensures IsSuccess(r.0) ==> r.1 == table + [NewIncident(caller, data)]
    ensures !IsSuccess(r.0) ==> r.1 == table && r.0 == Error(400, insert.message)
    ensures insert.InsertReturned? ==> r.0 == EchoFirst(insert, "report")
  {
    (EchoFirst(insert, "report"), Append(table, NewIncident(caller, data), insert))
  }

  /** The guarded route: only a caller whose stored role is `'teacher'` can add an incident. */
  function SubmitIncidentRoute(s: Session, lookup: Lookup, isJson: bool, table: seq<Report>, data: Object, insert: InsertOutcome)
    : (r: (Response, seq<Report>))
    ensures r.1 != table ==> StoredRoleIs(s, lookup, "teacher") && r.1 == table + [NewIncident(s.userId.value, data)]
    ensures StoredRoleIs(s, lookup, "teacher") ==> r == SubmitIncident(table, s.userId.value, data, insert)
    ensures !StoredRoleIs(s, lookup, "teacher") ==> r.1 == table && r.0 == RequireAuth(s, lookup, TeacherOnly, isJson).response
  {
    SingleRoleGuard(s, lookup, "teacher", isJson);
    var d := RequireAuth(s, lookup, TeacherOnly, isJson);
    if d.Proceed? then SubmitIncident(table, s.userId.value, data, insert) else (d.response, table)
  }

  datatype Dashboard = Dashboard(reports: seq<Report>, notifications: seq<Notification>)

  /**
   * GET /teacher/dashboard as written: reading `request.app` raises before
   * any query runs, so the page never renders.
   */
  function DashboardAsWritten(caller: Id, reports: seq<Report>, notes: seq<Notification>): (p: Page<Dashboard>)
    ensures p.Crashed?
  {
    Crashed
  }

  /**
   * GET /teacher/dashboard with the application's store client: the twenty
   * newest reports of all users, and the caller's ten newest notifications.
   */
  function DashboardIntended(caller: Id, reports: seq<Report>, notes: seq<Notification>): (p: Page<Dashboard>)
    ensures p.Rendered?
    ensures |p.view.reports| == if |reports| < 20 then |reports| else 20
    ensures forall i :: 0 <= i < |p.view.reports| ==> p.view.reports[i] == reports[|reports| - 1 - i]
    ensures |p.view.notifications| <= 10
    ensures forall i :: 0 <= i < |p.view.notifications| ==> p.view.notifications[i].userId == Some(caller)
    ensures var mine := Where(notes, NotificationFor(caller));
            && |p.view.notifications| == (if |mine| < 10 then |mine| else 10)
            && forall i :: 0 <= i < |p.view.notifications| ==> p.view.notifications[i] == mine[|mine| - 1 - i]
  {
    Rendered(Dashboard(Limit(NewestFirst(reports), 20), Newest(notes, NotificationFor(caller), 10)))
  }

  /** A stored incident heads the dashboard's report list, whoever filed it. */
  lemma IncidentHeadsDashboard(table: seq<Report>, caller: Id, data: Object, insert: InsertOutcome,
                               viewer: Id, notes: seq<Notification>)
    requires IsSuccess(SubmitIncident(table, caller, data, insert).0)
    ensures var p := DashboardIntended(viewer, SubmitIncident(table, caller, data, insert).1, notes);
            p.Rendered? && p.view.reports[0] == NewIncident(caller, data)
  {
  }
}
